=== FILE: README.md ===
# Bowl pool — a Dafny model of its core

The bowl pool is a web app for a group of friends. Each participant picks,
for every college bowl game, the side they think will cover the point
spread. A bowl is settled against the spread once it is final. On a decided
bowl, everyone who picked the winning side takes one point from everyone who
picked the losing side. The leaderboard is therefore zero-sum. A background
updater pulls live scores from the ESPN scoreboard feed and writes each
bowl's scores and status.

This project models that core with immutable datatypes and pure functions,
one module per concern:

- `Wrappers` (`wrappers.dfy`): `Option`.
- `Text` (`text.dfy`): the string operations the updater relies on. These
  are ASCII lower-casing, Python's `strip` with its whitespace set,
  substring search, and `replace` with an empty replacement.
- `Calendar` (`calendar.dfy`): dates and whole-second UTC instants with Python's ordering,
  the day after a date (`timedelta(days=1)`), and `%Y%m%d` rendering.
- `Models` (`models.dfy`): bowls, participants and picks. Settling a bowl
  against its spread (`get_winner`), `is_winner`, the display name, and the
  picks table with its unique (participant, bowl) constraint.
- `Scoring` (`scoring.dfy`): `calculate_scores` and the scoreboard's
  per-bowl pick counts, with the zero-sum property proved per bowl and for
  the whole leaderboard.
- `Picking` (`picking.dfy`): the pick lock and the all-or-nothing pick-sheet
  submission. Submitting validates every bowl, then updates or inserts one
  row per bowl.
- `Espn` (`espn.dfy`): the feed's shape, team-name normalisation and fuzzy
  matching, the status vocabulary, and the choice of the matching event.
- `ScoreSync` (`scoresync.dfy`): `_update_bowl_from_espn`, the query date
  range and its `dates` parameter, and `update_scores`.

The wall clock is the parameter `now` of `PicksAreLocked` and `SubmitPicks`.
The HTTP fetch is the parameter `feed` of `UpdateScores`: a function from the
`dates` parameter to the events returned. A failed fetch is a feed that
returns no events.

## Model

| member | source | states |
|---|---|---|
| Models.GetWinner | models.py:49-67 | A canceled or ignored bowl is a push whatever its scores. Otherwise there is no result until the bowl is final with both scores. Then the favored side wins exactly when score plus spread beats the opponent's score, and the opponent wins exactly when it falls short. |
| Models.StatusFirstAgrees | models.py:51-57 | Testing the status before the missing scores gives the same outcome as the code's order. |
| Models.HalfPointSpreadNeverPushes | models.py:59-67 | A settled bowl with a half-point spread always has a winning side, never a push. |
| Models.MirrorSwapsWinner | models.py:59-67 | Swapping the teams, their scores and the sign of the spread swaps the winning side and keeps a push or an undecided result. |
| Models.IsWinner | models.py:115-120 | No verdict while the bowl is undecided or a push. Otherwise the pick won exactly when the picked side is the winning side, and lost exactly when the other side won. |
| Models.DisplayName | models.py:92-94 | The nickname when it is present and non-empty, otherwise the name. |
| Models.Lookup | app.py:78-79 | A participant has a pick on a bowl exactly when some row holds that pair. With the table's unique constraint (models.py:110) the pick is that row's side. |
| Scoring.CountsPartitionPicks | app.py:84-90 | Every participant with a pick on a bowl picked exactly one side, so the two side counts add up to the number of picks. |
| Scoring.TallyPicks | app.py:81-93 | The winners are exactly the participants whose pick is the winning side, and the losers exactly those who picked the other side. Their numbers are the side counts. |
| Scoring.PointsOn | app.py:63-106 | A participant scores 0 on an undecided bowl, on a push and without a pick. On a won bowl, a right pick earns the number of wrong picks and a wrong pick loses the number of right picks. |
| Scoring.UnsettledSumsToZero | app.py:66-75 | On an undecided bowl or a push, the points of any group of participants add up to zero. |
| Scoring.BowlZeroSum | app.py:92-104 | On every bowl, all participants' points add up to zero. |
| Scoring.PointsByBowl | app.py:96-106 | A participant's per-bowl entries have one key per bowl. |
| Scoring.ByBowlEntries | app.py:96-106 | Each per-bowl entry is the participant's points on that bowl. |
| Scoring.CalculateScores | app.py:51-108 | Every participant, active or not, gets a row. Each row has an entry for every bowl equal to the points earned there, and a total that is the sum over the bowls. |
| Scoring.SumTotalsSnoc | app.py:96-104 | Scoring one more bowl adds that bowl's points to the sum of the totals. |
| Scoring.TotalsZeroSum | app.py:51-108 | All participants' totals add up to zero. |
| Scoring.NoPicksScoresZero | app.py:84-106 | A participant without any pick has a row with 0 on every bowl and a total of 0. |
| Scoring.TotalWithoutPicks | app.py:96-106 | A participant without any pick has a total of 0. |
| Scoring.PickCounts | app.py:219-225 | There is one entry per bowl. Its favored count is the number of participants who picked the favored side, and likewise for the opponent. These are the same counts the payouts use, and together they add up to the number of participants with a pick on that bowl. |
| Scoring.PayoutFromCounts | app.py:92-104 | On a won bowl, a right pick earns the scoreboard's count of the losing side, and a wrong pick loses the count of the winning side. |
| Picking.EarliestKickoff | app.py:45 | The first bowl in kickoff order: some bowl kicks off at that instant and none kicks off earlier. |
| Picking.PicksAreLocked | app.py:43-48 | Picks are locked exactly when some bowl has kicked off at or before `now`. They are never locked with no bowls. |
| Picking.LockIsPermanent | app.py:43-48 | Once locked at some instant, picks stay locked at every later instant. |
| Picking.FindRow | app.py:170-173 | The first row for the pair at or after a position, or `None` exactly when there is none. |
| Picking.Upsert | app.py:169-183 | Updating an existing row or appending one keeps the unique constraint. The pair then reads as the new side, and every other pair reads as before. |
| Picking.ParseSide | app.py:157-158 | A form value is a pick exactly when it is the string `favored` or `opponent`. |
| Picking.MissingPicks | app.py:155-159 | The flagged bowls are exactly the listed bowls whose form value is absent or not a valid side. |
| Picking.SaveAll | app.py:165-185 | After saving a complete sheet, the participant's pick on every listed bowl is the submitted side. The unique constraint holds, and every other pair reads as before. |
| Picking.SubmitPicks | app.py:150-187 | A locked submission changes nothing. A sheet missing any valid pick is rejected, listing exactly the missing bowls, and changes nothing. Otherwise every listed bowl gets the submitted side, and nothing else changes. |
| Espn.NormalizeTeamName | score_updater.py:190-198 | The normalised name is lower case and has no surrounding whitespace. What each deletion removes is fixed by `Text.RemoveAllFirstOccurrence` and `Text.RemoveAll`. |
| Espn.NormalizeKeepsPlainNames | score_updater.py:190-198 | A name that mentions none of " football", "university" and "college" is only lower-cased and stripped. |
| Espn.NormalizeDropsFootball | score_updater.py:193-194 | A name whose lower-cased form mentions " football" loses at least those nine characters. |
| Espn.NormalizeDropsSuffixWords | score_updater.py:193-197 | A name mentioning " football", "university" or "college" loses at least the seven characters of the shortest of them. |
| Espn.TeamsMatchMeaning | score_updater.py:174-188 | Two names match exactly when one normalised name occurs inside the other. |
| Espn.TeamsMatchReflexive | score_updater.py:180-182 | Every name matches itself. |
| Espn.TeamsMatchSymmetric | score_updater.py:185-186 | Matching does not depend on which name comes from the feed. |
| Espn.TeamsMatchIgnoresCase | score_updater.py:193 | Names that agree up to letter case match the same teams. |
| Espn.EmptyNameMatchesEverything | score_updater.py:185-186 | A name that normalises to the empty string matches every team. |
| Espn.ExtendedNameMatches | score_updater.py:185-186 | A feed name whose normalised form starts with the bowl's normalised team name matches it. |
| Espn.MapEspnStatus | score_updater.py:200-213 | Each result is given by an if-and-only-if on the lower-cased status, in order of precedence. It is final exactly when `final` or `complete` occurs. It is in progress exactly when `progress` or `live` occurs and neither of those does. It is canceled exactly when `cancel` or `postpone` occurs and none of the earlier keywords, `scheduled` and `pre` included, does. Every other status is not started. |
| Espn.StoredNamesMapToThemselves | score_updater.py:200-213 | A consistency check of the keyword table against the vocabulary the bowls table stores: each of the four stored status names, fed to the mapping, gives back its own status. The updater itself never passes these names; it passes the feed's status type name (score_updater.py:108). |
| Espn.MapEspnStatusIgnoresCase | score_updater.py:202 | Statuses that agree up to letter case map alike. |
| Espn.FindMatchingGame | score_updater.py:146-172 | The first event whose first competition has exactly two competitors, with some name matching the favored team and some name matching the opponent. `None` exactly when no event qualifies. |
| ScoreSync.PutScore | score_updater.py:119 | The `team_scores` assignment keeps keys unique and holds the new entry. Entries under other keys survive, nothing else appears, and the keys are the old keys plus the new name. |
| ScoreSync.CollectScores | score_updater.py:114-119 | Collection fails exactly when some competitor's score is not an integer. Otherwise every entry is a name and score that some competitor reported, and every competitor with a score has an entry under its name. |
| ScoreSync.AssignSides | score_updater.py:122-130 | The favored score comes from an entry matching the favored team, and is absent exactly when none matches. The opponent score comes from an entry matching the opponent but not the favored team, and is absent exactly when there is none. |
| ScoreSync.UpdateBowl | score_updater.py:85-144 | An unwritten bowl is unchanged. A written bowl has both scores, and only its two scores and its status differ. |
| ScoreSync.UpdateFromCompetition | score_updater.py:100-140 | The same all-or-nothing write, for the first competition of the matching event. It takes the tests that recognise each side's name as parameters. |
| ScoreSync.UpdateReadsMatchedCompetition | score_updater.py:88-100 | A bowl without a matching event is not written. Otherwise its update is the one read from the first competition of the first qualifying event, with `_teams_match` against each team as the name tests. |
| ScoreSync.WrittenExactlyWhen | score_updater.py:103-138 | A competition is written exactly when it has two competitors and every score is an integer. It also needs a scored competitor matching the favored team, and a scored competitor matching the opponent but not the favored team. The statement holds for any name tests, so in particular for the `_teams_match` tests the updater uses. |
| ScoreSync.SidesFoundExactlyWhen | score_updater.py:114-130 | A side gets a score exactly when some competitor with a numeric score belongs to it. For the opponent, that competitor must not also match the favored team. |
| ScoreSync.CompetitionValues | score_updater.py:103-138 | A written competition has two competitors. The status is the competition's mapped status. The favored score is the number reported by a competitor matching the favored team, and the opponent score by one matching the opponent but not the favored team. |
| ScoreSync.ScoresComeFromCompetitors | score_updater.py:113-130 | Each assigned score is the number some competitor of that side reported. |
| ScoreSync.UpdateDependsOnNames | score_updater.py:85-144 | Whether and how a bowl is written depends only on its two team names. |
| ScoreSync.UpdateBowlIdempotent | score_updater.py:85-144 | Updating an updated bowl again from the same events changes nothing. |
| ScoreSync.ActiveBowls | score_updater.py:29-32 | The selected bowls are exactly those not started or in progress. |
| ScoreSync.UpdateEach | score_updater.py:45-49 | Every active bowl becomes its update, every other bowl is kept, and the written ones are counted. |
| ScoreSync.ApplyFeed | score_updater.py:34-51 | Final and canceled bowls never change. A feed without events changes nothing. Every active bowl becomes its update. |
| ScoreSync.ApplyFeedIdempotent | score_updater.py:45-51 | Applying the same events twice leaves the bowls as applying them once. |
| ScoreSync.LatestKickoff | score_updater.py:65 | Some bowl kicks off at that instant and none kicks off later. |
| ScoreSync.QueryRange | score_updater.py:63-65 | The range starts on the date of the earliest kickoff. It ends the day after the latest kickoff's date, so every kickoff date falls inside it. It is absent exactly when some kickoff falls on 9999-12-31. |
| ScoreSync.KickoffDateBounds | score_updater.py:64-65 | The earliest and latest kickoffs bound every kickoff date. |
| ScoreSync.DateParam | score_updater.py:67-68 | The `dates` parameter has 17 characters with a dash in the middle. |
| ScoreSync.DateParamRoundTrip | score_updater.py:67-68 | Both dates read back from the parameter. |
| ScoreSync.UpdateScores | score_updater.py:21-56 | Final and canceled bowls never change. Nothing changes without active bowls or without events. |
| ScoreSync.LastDayAborts | score_updater.py:54-65 | A run with an active bowl on 9999-12-31 fails computing the end date and changes nothing. |
| ScoreSync.RunQueriesActiveRange | score_updater.py:30-48 | Otherwise a run with an active bowl applies what the feed returns for a range. That range starts on an active kickoff date, ends on the day after an active kickoff date, and covers every active kickoff date, so it runs from the earliest active kickoff date to the day after the latest. |
| ScoreSync.ActiveRangeFacts | score_updater.py:63-65 | The query range stated over the whole bowls table: it starts on an active kickoff date, ends on the day after an active kickoff date, and covers every active kickoff date. |
| ScoreSync.InRange | score_updater.py:63-65 | Every selected bowl kicks off within the query range. |
| Calendar.InstantKeyOrder | app.py:47 | Comparing instant keys compares dates first, then the time of day, as `datetime` does. |
| Calendar.DayKeyOrder | score_updater.py:64-65 | Comparing day keys compares dates as `date` does, and equal keys mean equal dates. |
| Calendar.NextDay | score_updater.py:65 | The next calendar day: valid, later, and with no valid date in between. It is absent exactly for 9999-12-31. |
| Calendar.FormatDate | score_updater.py:68 | `%Y%m%d` gives eight digits. |
| Calendar.FormatDateRoundTrip | score_updater.py:68 | The eight digits read back as the date. |
| Calendar.FormatDateInjective | score_updater.py:68 | Different dates render differently. |
| Text.Lower | score_updater.py:193 | Lower-casing keeps the length, maps each character on its own, and yields lower case. |
| Text.Strip | score_updater.py:197 | The result is the input with leading and trailing whitespace removed. It has no whitespace at either end, and an input without such whitespace is unchanged. |
| Text.Contains | score_updater.py:185 | True exactly when the pattern occurs at some position. |
| Text.RemoveAll | score_updater.py:194-196 | Text without an occurrence of the pattern is unchanged. Text with one is at least one pattern length shorter. Lower-case text stays lower case. |
| Text.RemoveAllFirstOccurrence | score_updater.py:194-196 | For the first occurrence of the pattern, the text before it is kept, the occurrence is deleted, and the deletion carries on in the text after it. With `RemoveAll`'s unchanged-text clause, this fixes the result of `replace(pat, '')` for every input. |

## Left out

- Flask routing, sessions, logins, invite tokens, flash messages, templates
  and the admin pages are left out. They only move data in and out of the
  core.
- SQLAlchemy is not modelled. Tables are sequences of rows, and the
  database's unique and primary-key constraints are predicates
  (`UniquePairs`, `DistinctBowls`).
- The migration scripts and the seed data are left out.
- The wall clock is not read. `datetime.utcnow()` is the parameter `now`.
- The HTTP request is left out. Its result is the parameter `feed`, and a
  failed request is a feed with no events.
- Logging is not modelled.
- `update_scores` commits once per run, after every bowl has been updated.
  A raised exception rolls the whole run back. The model has no
  transactions: a run that raises changes nothing, and any other run
  applies every update.
- The only exception modelled inside a run is the overflow of the day after
  9999-12-31. The JSON feed is assumed well-formed apart from absent fields
  and scores `int()` rejects.
- The spread is a Python float. It is modelled as an exact `real`, so
  rounding in `score + spread` is not modelled.
- Models.GetWinner: the status is a closed enumeration of the four values
  the core writes, so a stored status outside those four cannot be
  represented. In `get_winner` such a status would act like a not-started
  bowl. The updater's query would skip it, because it selects only
  `not_started` and `in_progress` bowls.
- Picking.PicksAreLocked: instants are whole seconds. Python's `datetime`
  also carries microseconds, both in `utcnow()` and in stored kickoffs. A
  kickoff with a sub-second part is treated as starting at its whole second,
  so the model can lock picks up to one second earlier than the code.
- `picked_team` is the enumeration `Side`. The picks form only stores
  `favored` or `opponent`, so no other value reaches the table.
- Text.Lower: lower-cases ASCII letters only. Python's `str.lower` also
  folds non-ASCII letters.
- Calendar.FormatDate: pads the year to four digits. Python's `strftime`
  may print years below 1000 with fewer digits on some platforms.
- ScoreSync.UpdateScores: the `updated` count is stated for the per-bowl
  loop (`UpdateEach`). It is not restated at the level of a whole run.
- Scoring covers every participant in the table, active or not, as
  `calculate_scores` does.
- There is no per-round lock. `picks_are_locked` looks only at the earliest
  kickoff of all bowls.
- The fuzzy team-name matching is modelled as written, including its
  looseness. An empty name matches every team (`EmptyNameMatchesEverything`),
  and a feed name that matches both teams counts only for the favored team.
- The GET branch of the picks page only displays the current picks. It is
  not modelled.

=== FILE: calendar.dfy ===
/**
 * Proleptic Gregorian dates and times of day, as Python's `date` and
 * `datetime` hold them (microseconds are not modelled), with the two
 * operations the score sync needs: adding one day and rendering a date
 * as the eight digits of `strftime('%Y%m%d')`.
 */
module Calendar {
  import opened Wrappers

  datatype Date = Date(year: int, month: int, day: int)

  /** A UTC instant: a calendar date plus the seconds elapsed since midnight. */
  datatype DateTime = DateTime(date: Date, secondOfDay: int)

  /** The range of Python's `date` type. */
  const MinYear := 1
  const MaxYear := 9999
  const SecondsPerDay := 86400

  predicate IsLeapYear(y: int) {
    y % 4 == 0 && (y % 100 != 0 || y % 400 == 0)
  }

  function DaysInMonth(y: int, m: int): (n: int)
    requires 1 <= m <= 12
    ensures 28 <= n <= 31
  {
    if m == 2 then (if IsLeapYear(y) then 29 else 28)
    else if m == 4 || m == 6 || m == 9 || m == 11 then 30
    else 31
  }

  predicate ValidDate(d: Date) {
    && MinYear <= d.year <= MaxYear
    && 1 <= d.month <= 12
    && 1 <= d.day <= DaysInMonth(d.year, d.month)
  }

  predicate ValidDateTime(t: DateTime) {
    ValidDate(t.date) && 0 <= t.secondOfDay < SecondsPerDay
  }

  /** Python's `date` ordering: year, then month, then day. */
  predicate DateBefore(a: Date, b: Date) {
    || a.year < b.year
    || (a.year == b.year && a.month < b.month)
    || (a.year == b.year && a.month == b.month && a.day < b.day)
  }

  /** A number per date that grows with the calendar (gaps are allowed). */
  function DayKey(d: Date): int {
    d.year * 372 + (d.month - 1) * 31 + (d.day - 1)
  }

  /** A number per instant that grows with time. */
  function InstantKey(t: DateTime): int {
    DayKey(t.date) * SecondsPerDay + t.secondOfDay
  }

  /** Comparing keys is comparing dates the way Python does. */
  lemma DayKeyOrder(a: Date, b: Date)
    requires ValidDate(a) && ValidDate(b)
    ensures DayKey(a) < DayKey(b) <==> DateBefore(a, b)
    ensures DayKey(a) == DayKey(b) <==> a == b
  {
  }

  /** Comparing instant keys orders first by date, then by time of day. */
  lemma InstantKeyOrder(a: DateTime, b: DateTime)
    requires ValidDateTime(a) && ValidDateTime(b)
    ensures InstantKey(a) < InstantKey(b) <==>
              DateBefore(a.date, b.date) || (a.date == b.date && a.secondOfDay < b.secondOfDay)
  {
    DayKeyOrder(a.date, b.date);
  }

  /**
   * `d + timedelta(days=1)`; `None` stands for the `OverflowError` Python
   * raises past 9999-12-31. The result is the very next valid date.
   */
  function NextDay(d: Date): (r: Option<Date>)
    requires ValidDate(d)
    ensures r.None? <==> d == Date(MaxYear, 12, 31)
    ensures r.Some? ==> ValidDate(r.value) && DateBefore(d, r.value)
    ensures r.Some? ==> forall e :: ValidDate(e) && DateBefore(d, e) ==> !DateBefore(e, r.value)
  {
    if d.day < DaysInMonth(d.year, d.month) then Some(Date(d.year, d.month, d.day + 1))
    else if d.month < 12 then Some(Date(d.year, d.month + 1, 1))
    else if d.year < MaxYear then Some(Date(d.year + 1, 1, 1))
    else None
  }

  /** The character for a decimal digit. */
  function DigitChar(n: int): (c: char)
    requires 0 <= n < 10
    ensures '0' <= c <= '9'
  {
    ('0' as int + n) as char
  }

  predicate IsDigit(c: char) {
    '0' <= c <= '9'
  }

  function Pow10(w: nat): (p: nat)
    ensures p >= 1
  {
    if w == 0 then 1 else 10 * Pow10(w - 1)
  }

  /** `n` written with exactly `w` decimal digits, zero-padded on the left. */
  function Pad(n: nat, w: nat): (s: string)
    ensures |s| == w
    ensures forall i :: 0 <= i < |s| ==> IsDigit(s[i])
  {
    if w == 0 then [] else Pad(n / 10, w - 1) + [DigitChar(n % 10)]
  }

  /** The number a string of decimal digits denotes. */
  function DigitsValue(s: string): int
    requires forall i :: 0 <= i < |s| ==> IsDigit(s[i])
  {
    if |s| == 0 then 0 else DigitsValue(s[..|s| - 1]) * 10 + (s[|s| - 1] as int - '0' as int)
  }

  /** Reading back a padded rendering gives the number, when it fits. */
  lemma {:induction false} PadRoundTrip(n: nat, w: nat)
    requires n < Pow10(w)
    ensures DigitsValue(Pad(n, w)) == n
  {
    if w > 0 {
      var s := Pad(n, w);
      assert s[..|s| - 1] == Pad(n / 10, w - 1);
      PadRoundTrip(n / 10, w - 1);
    }
  }

  /** `strftime('%Y%m%d')`. */
  function FormatDate(d: Date): (s: string)
    requires ValidDate(d)
    ensures |s| == 8
    ensures forall i :: 0 <= i < |s| ==> IsDigit(s[i])
  {
    Pad(d.year, 4) + Pad(d.month, 2) + Pad(d.day, 2)
  }

  /** Reads an eight-digit `YYYYMMDD` string. */
  function ParseDate(s: string): Date
    requires |s| == 8
    requires forall i :: 0 <= i < |s| ==> IsDigit(s[i])
  {
    Date(DigitsValue(s[..4]), DigitsValue(s[4..6]), DigitsValue(s[6..]))
  }

  /** Rendering loses nothing: the eight digits determine the date. */
  lemma FormatDateRoundTrip(d: Date)
    requires ValidDate(d)
    ensures ParseDate(FormatDate(d)) == d
  {
    var s := FormatDate(d);
    assert s[..4] == Pad(d.year, 4);
    assert s[4..6] == Pad(d.month, 2);
    assert s[6..] == Pad(d.day, 2);
    PadRoundTrip(d.year, 4);
    PadRoundTrip(d.month, 2);
    PadRoundTrip(d.day, 2);
  }

  /** Distinct dates render differently. */
  lemma FormatDateInjective(a: Date, b: Date)
    requires ValidDate(a) && ValidDate(b) && FormatDate(a) == FormatDate(b)
    ensures a == b
  {
    FormatDateRoundTrip(a);
    FormatDateRoundTrip(b);
  }
}

=== FILE: espn.dfy ===
/**
 * The live-score feed as the score updater reads it, and the rules that
 * tie its events to bowls: team-name normalisation and fuzzy matching,
 * the status vocabulary, and the choice of the matching event.
 */
module Espn {
  import opened Wrappers
  import opened Text
  import opened Models

  /**
   * A competitor's `score` field: absent, a string `int()` accepts, or
   * one it rejects (which raises and abandons the bowl's update).
   */
  datatype RawScore = NoScore | Number(value: int) | Malformed

  /** A competitor; a missing team display name reads as the empty string. */
  datatype Competitor = Competitor(teamName: string, score: RawScore)

  /** A competition; a missing status type name reads as the empty string. */
  datatype Competition = Competition(competitors: seq<Competitor>, statusName: string)

  datatype Event = Event(competitions: seq<Competition>)

  /**
   * `_normalize_team_name`: lower-case, delete " football", then
   * "university", then "college", then strip. The result is lower case
   * and carries no surrounding whitespace.
   */
  function NormalizeTeamName(name: string): (r: string)
    ensures r == [] || (!IsSpace(r[0]) && !IsSpace(r[|r| - 1]))
    ensures LowerCase(r)
  {
    var lowered := Lower(name);
    var noFootball := RemoveAll(lowered, " football");
    var noUniversity := RemoveAll(noFootball, "university");
    var noCollege := RemoveAll(noUniversity, "college");
    Strip(noCollege)
  }

  /** A name mentioning " football" loses at least those nine characters. */
  lemma NormalizeDropsFootball(name: string)
    requires Contains(Lower(name), " football")
    ensures |NormalizeTeamName(name)| + |" football"| <= |name|
  {
  }

  /**
   * Normalising shortens every name that mentions " football",
   * "university" or "college", by at least the length of the shortest.
   */
  lemma NormalizeDropsSuffixWords(name: string)
    requires || Contains(Lower(name), " football")
             || Contains(Lower(name), "university")
             || Contains(Lower(name), "college")
    ensures |NormalizeTeamName(name)| + |"college"| <= |name|
  {
    var lowered := Lower(name);
    var noFootball := RemoveAll(lowered, " football");
    var noUniversity := RemoveAll(noFootball, "university");
    var noCollege := RemoveAll(noUniversity, "college");
    if !Contains(lowered, " football") {
      assert noFootball == lowered;
      if !Contains(lowered, "university") {
        assert noUniversity == lowered;
      }
    }
  }

  /**
   * A name mentioning none of the three words is only lower-cased and
   * stripped: normalisation deletes nothing else.
   */
  lemma NormalizeKeepsPlainNames(name: string)
    requires !Contains(Lower(name), " football")
    requires !Contains(Lower(name), "university")
    requires !Contains(Lower(name), "college")
    ensures NormalizeTeamName(name) == Strip(Lower(name))
  {
  }

  /**
   * `_teams_match`: the normalised names match when one occurs inside the
   * other (equality, tested first by the code, is the special case of a
   * full-length occurrence).
   */
  function TeamsMatch(espnName: string, bowlName: string): bool {
    var e := NormalizeTeamName(espnName);
    var b := NormalizeTeamName(bowlName);
    if e == b then true
    else Contains(b, e) || Contains(e, b)
  }

  /** Two names match exactly when one normalised name occurs inside the other. */
  lemma TeamsMatchMeaning(espnName: string, bowlName: string)
    ensures TeamsMatch(espnName, bowlName) <==>
      var e := NormalizeTeamName(espnName);
      var b := NormalizeTeamName(bowlName);
      (exists i :: OccursAt(b, e, i)) || (exists i :: OccursAt(e, b, i))
  {
    var e := NormalizeTeamName(espnName);
    var b := NormalizeTeamName(bowlName);
    if e == b {
      assert OccursAt(b, e, 0);
    }
  }

  lemma TeamsMatchReflexive(a: string)
    ensures TeamsMatch(a, a)
  {
  }

  lemma TeamsMatchSymmetric(a: string, b: string)
    ensures TeamsMatch(a, b) == TeamsMatch(b, a)
  {
  }

  /** Matching ignores letter case. */
  lemma TeamsMatchIgnoresCase(a: string, a': string, b: string)
    requires Lower(a) == Lower(a')
    ensures TeamsMatch(a, b) == TeamsMatch(a', b)
  {
  }

  /**
   * The looseness of substring matching: a name that normalises to the
   * empty string matches every team.
   */
  lemma EmptyNameMatchesEverything(a: string, b: string)
    requires NormalizeTeamName(a) == []
    ensures TeamsMatch(a, b)
  {
    assert OccursAt(NormalizeTeamName(b), NormalizeTeamName(a), 0);
    TeamsMatchMeaning(a, b);
  }

  /**
   * A feed name that extends the bowl's team name, as "Ohio State
   * Buckeyes" extends "Ohio State", matches it.
   */
  lemma ExtendedNameMatches(espnName: string, bowlName: string)
    requires var e := NormalizeTeamName(espnName);
             var b := NormalizeTeamName(bowlName);
             |b| <= |e| && e[..|b|] == b
    ensures TeamsMatch(espnName, bowlName)
  {
    assert OccursAt(NormalizeTeamName(espnName), NormalizeTeamName(bowlName), 0);
    TeamsMatchMeaning(espnName, bowlName);
  }

  /**
   * `_map_espn_status`: by case-insensitive keyword, in this order of
   * precedence: final/complete, progress/live, scheduled/pre,
   * cancel/postpone; anything else counts as not started.
   */
  function MapEspnStatus(espnStatus: string): (r: Status)
    ensures var s := Lower(espnStatus);
      var final := Contains(s, "final") || Contains(s, "complete");
      var live := Contains(s, "progress") || Contains(s, "live");
      var scheduled := Contains(s, "scheduled") || Contains(s, "pre");
      var called := Contains(s, "cancel") || Contains(s, "postpone");
      && (r == Final <==> final)
      && (r == InProgress <==> !final && live)
      && (r == Canceled <==> !final && !live && !scheduled && called)
      && (r == NotStarted <==> !final && !live && (scheduled || !called))
  {
    var s := Lower(espnStatus);
    if Contains(s, "final") || Contains(s, "complete") then Final
    else if Contains(s, "progress") || Contains(s, "live") then InProgress
    else if Contains(s, "scheduled") || Contains(s, "pre") then NotStarted
    else if Contains(s, "cancel") || Contains(s, "postpone") then Canceled
    else NotStarted
  }

  /** The name each status is stored under. */
  function StatusName(s: Status): string {
    match s
    case NotStarted => "not_started"
    case InProgress => "in_progress"
    case Final => "final"
    case Canceled => "canceled"
  }

  /**
   * The keyword table agrees with the stored vocabulary: each stored name
   * maps back to its own status. (The updater maps the feed's status type
   * name, never these; this only checks the two vocabularies line up.)
   */
  lemma StoredNamesMapToThemselves(s: Status, n: string)
    requires n == StatusName(s)
    ensures MapEspnStatus(n) == s
  {
    match s
    case NotStarted => NotStartedMapsBack(n);
    case InProgress => InProgressMapsBack(n);
    case Final => FinalMapsBack(n);
    case Canceled => CanceledMapsBack(n);
  }

  lemma NotStartedMapsBack(n: string)
    requires n == "not_started"
    ensures MapEspnStatus(n) == NotStarted
  {
    assert Lower(n) == n;
    AbsentCharExcludes(n, "final", 0);
    AbsentCharExcludes(n, "complete", 2);
    AbsentCharExcludes(n, "progress", 0);
    AbsentCharExcludes(n, "live", 2);
    AbsentCharExcludes(n, "scheduled", 2);
    AbsentCharExcludes(n, "pre", 0);
    AbsentCharExcludes(n, "cancel", 0);
    AbsentCharExcludes(n, "postpone", 0);
  }

  lemma InProgressMapsBack(n: string)
    requires n == "in_progress"
    ensures MapEspnStatus(n) == InProgress
  {
    assert Lower(n) == n;
    AbsentCharExcludes(n, "final", 0);
    AbsentCharExcludes(n, "complete", 2);
    assert n[3..11] == "progress";
    assert OccursAt(n, "progress", 3);
  }

  lemma FinalMapsBack(n: string)
    requires n == "final"
    ensures MapEspnStatus(n) == Final
  {
    assert Lower(n) == n;
    assert OccursAt(n, "final", 0);
  }

  lemma CanceledMapsBack(n: string)
    requires n == "canceled"
    ensures MapEspnStatus(n) == Canceled
  {
    assert Lower(n) == n;
    AbsentCharExcludes(n, "final", 0);
    AbsentCharExcludes(n, "complete", 2);
    AbsentCharExcludes(n, "progress", 0);
    AbsentCharExcludes(n, "live", 2);
    AbsentCharExcludes(n, "scheduled", 2);
    AbsentCharExcludes(n, "pre", 0);
    assert n[0..6] == "cancel";
    assert OccursAt(n, "cancel", 0);
  }

  /** Mapping ignores letter case. */
  lemma MapEspnStatusIgnoresCase(a: string, b: string)
    requires Lower(a) == Lower(b)
    ensures MapEspnStatus(a) == MapEspnStatus(b)
  {
  }

  /** Some competitor's name matches `team`. */
  function AnyNameMatches(cs: seq<Competitor>, team: string): bool {
    exists k :: 0 <= k < |cs| && TeamsMatch(cs[k].teamName, team)
  }

  /**
   * The event is a candidate for the bowl: its first competition has
   * exactly two competitors, one name matches the favored team and one
   * (possibly the same) matches the opponent.
   */
  predicate Qualifies(e: Event, favored: string, opponent: string) {
    && |e.competitions| > 0
    && |e.competitions[0].competitors| == 2
    && AnyNameMatches(e.competitions[0].competitors, favored)
    && AnyNameMatches(e.competitions[0].competitors, opponent)
  }

  /** The first index at or after `from` whose element satisfies `p`. */
  function FirstWhere<T>(s: seq<T>, p: T -> bool, from: nat): (r: Option<nat>)
    requires from <= |s|
    ensures r.Some? ==> from <= r.value < |s| && p(s[r.value])
    ensures r.Some? ==> forall j :: from <= j < r.value ==> !p(s[j])
    ensures r.None? <==> forall j :: from <= j < |s| ==> !p(s[j])
    decreases |s| - from
  {
    if from == |s| then None
    else if p(s[from]) then Some(from)
    else FirstWhere(s, p, from + 1)
  }

  /**
   * `_find_matching_game`: the index of the first event, in feed order,
   * that qualifies for the bowl; `None` when none does.
   */
  function FindMatchingGame(events: seq<Event>, favored: string, opponent: string): (r: Option<nat>)
    ensures r.Some? ==> r.value < |events| && Qualifies(events[r.value], favored, opponent)
    ensures r.Some? ==> forall j :: 0 <= j < r.value ==> !Qualifies(events[j], favored, opponent)
    ensures r.None? <==> forall j :: 0 <= j < |events| ==> !Qualifies(events[j], favored, opponent)
  {
    FirstWhere(events, e => Qualifies(e, favored, opponent), 0)
  }
}

=== FILE: models.dfy ===
/**
 * The persisted entities of the pool — bowls, participants and picks —
 * and the two rules the entities carry themselves: how a bowl is settled
 * against its spread, and whether a pick won.
 */
module Models {
  import opened Wrappers
  import opened Calendar

  type BowlId = int
  type ParticipantId = int

  /** The four values the core ever stores in a bowl's status column. */
  datatype Status = NotStarted | InProgress | Final | Canceled

  /** The two sides a participant can pick. */
  datatype Side = Favored | Opponent

  /** A settled bowl: one side covered the spread, or nobody did. */
  datatype Winner = Won(side: Side) | Push

  /**
   * One bowl game. `spread` is the signed number of points added to the
   * favored team's score before comparing (for example -3.5).
   */
  datatype Bowl = Bowl(
    id: BowlId,
    name: string,
    kickoff: DateTime,
    favoredTeam: string,
    opponent: string,
    spread: real,
    favoredScore: Option<int>,
    opponentScore: Option<int>,
    status: Status,
    ignored: bool)

  datatype Participant = Participant(
    id: ParticipantId,
    name: string,
    nickname: Option<string>,
    email: Option<string>,
    isAdmin: bool,
    isActive: bool)

  /** One row of the picks table. */
  datatype Pick = Pick(participant: ParticipantId, bowl: BowlId, side: Side)

  function OtherSide(s: Side): Side {
    if s == Favored then Opponent else Favored
  }

  /** A bowl whose result counts: not canceled or ignored, final, and with both scores. */
  predicate Settled(b: Bowl) {
    && b.status == Final && !b.ignored
    && b.favoredScore.Some? && b.opponentScore.Some?
  }

  /** How far the favored team covered the spread; positive means it covered. */
  function Margin(b: Bowl): real
    requires b.favoredScore.Some? && b.opponentScore.Some?
  {
    b.favoredScore.value as real + b.spread - b.opponentScore.value as real
  }

  /**
   * `Bowl.get_winner`: `None` while the result is undetermined. A canceled
   * or ignored bowl is a push whatever its scores; otherwise only a final
   * bowl with both scores is settled, by the sign of its margin.
   */
  function GetWinner(b: Bowl): (w: Option<Winner>)
    ensures (b.status == Canceled || b.ignored) ==> w == Some(Push)
    ensures b.status != Canceled && !b.ignored && !Settled(b) ==> w == None
    ensures Settled(b) ==> w.Some?
    ensures w == Some(Won(Favored)) <==> Settled(b) && Margin(b) > 0.0
    ensures w == Some(Won(Opponent)) <==> Settled(b) && Margin(b) < 0.0
  {
    if b.status == Canceled || b.ignored then Some(Push)
    else if b.favoredScore.None? || b.opponentScore.None? then None
    else if b.status != Final then None
    else
      var adjusted := b.favoredScore.value as real + b.spread;
      if adjusted > b.opponentScore.value as real then Some(Won(Favored))
      else if adjusted < b.opponentScore.value as real then Some(Won(Opponent))
      else Some(Push)
  }

  /**
   * The rule table read with the status test before the score test gives
   * the same outcome: the order of those two checks does not matter.
   */
  lemma StatusFirstAgrees(b: Bowl)
    ensures GetWinner(b) ==
      if b.status == Canceled || b.ignored then Some(Push)
      else if b.status != Final then None
      else if b.favoredScore.None? || b.opponentScore.None? then None
      else if Margin(b) > 0.0 then Some(Won(Favored))
      else if Margin(b) < 0.0 then Some(Won(Opponent))
      else Some(Push)
  {
  }

  /** A half-point spread (an odd number of half points) can never tie. */
  lemma HalfPointSpreadNeverPushes(b: Bowl, halfPoints: int)
    requires halfPoints % 2 == 1 && b.spread == halfPoints as real / 2.0
    requires Settled(b)
    ensures GetWinner(b).Some? && GetWinner(b).value.Won?
  {
  }

  /** The bowl seen from the other side: teams, scores and spread swapped. */
  function Mirror(b: Bowl): Bowl {
    b.(favoredTeam := b.opponent, opponent := b.favoredTeam, spread := -b.spread,
       favoredScore := b.opponentScore, opponentScore := b.favoredScore)
  }

  /** Settling is symmetric: swapping the two sides swaps the winner. */
  lemma MirrorSwapsWinner(b: Bowl)
    ensures GetWinner(Mirror(b)) ==
      match GetWinner(b)
      case Some(Won(s)) => Some(Won(OtherSide(s)))
      case other => other
  {
  }

  /**
   * `Pick.is_winner` for a pick on bowl `b`: `None` while the bowl is
   * undetermined or a push, otherwise whether the picked side won.
   */
  function IsWinner(p: Pick, b: Bowl): (r: Option<bool>)
    requires p.bowl == b.id
    ensures r.None? <==> GetWinner(b).None? || GetWinner(b) == Some(Push)
    ensures r == Some(true) <==> GetWinner(b) == Some(Won(p.side))
    ensures r == Some(false) <==> GetWinner(b) == Some(Won(OtherSide(p.side)))
  {
    var winner := GetWinner(b);
    if winner == Some(Push) || winner.None? then None
    else Some(p.side == winner.value.side)
  }

  /** `Participant.get_display_name`: the nickname unless it is absent or empty. */
  function DisplayName(p: Participant): (r: string)
    ensures p.nickname.Some? && p.nickname.value != [] ==> r == p.nickname.value
    ensures p.nickname.None? || p.nickname.value == [] ==> r == p.name
  {
    if p.nickname.Some? && p.nickname.value != [] then p.nickname.value else p.name
  }

  /** The picks table, in row order. */
  type PickTable = seq<Pick>

  /** The table's unique constraint: at most one row per (participant, bowl). */
  ghost predicate UniquePairs(t: PickTable) {
    forall i, j :: 0 <= i < j < |t| ==>
      t[i].participant != t[j].participant || t[i].bowl != t[j].bowl
  }

  ghost predicate HasRow(t: PickTable, pid: ParticipantId, bid: BowlId, i: int) {
    0 <= i < |t| && t[i].participant == pid && t[i].bowl == bid
  }

  /**
   * The side `pid` picked on bowl `bid`, read the way the code builds its
   * dictionaries from the rows (a later row overwrites an earlier one).
   * On a table with unique pairs it is the side of the one matching row.
   */
  function Lookup(t: PickTable, pid: ParticipantId, bid: BowlId): (r: Option<Side>)
    ensures r.Some? <==> exists i :: HasRow(t, pid, bid, i)
    ensures UniquePairs(t) ==> forall i :: HasRow(t, pid, bid, i) ==> r == Some(t[i].side)
  {
    if |t| == 0 then None
    else if t[|t| - 1].participant == pid && t[|t| - 1].bowl == bid then
      assert HasRow(t, pid, bid, |t| - 1);
      Some(t[|t| - 1].side)
    else
      var prefix := t[..|t| - 1];
      PrefixRows(t, prefix, pid, bid);
      Lookup(prefix, pid, bid)
  }

  /** When the last row is for another pair, the matching rows are those of the prefix. */
  lemma PrefixRows(t: PickTable, prefix: PickTable, pid: ParticipantId, bid: BowlId)
    requires |t| > 0 && prefix == t[..|t| - 1] && !HasRow(t, pid, bid, |t| - 1)
    ensures forall i :: HasRow(t, pid, bid, i) <==> HasRow(prefix, pid, bid, i)
    ensures (exists i :: HasRow(t, pid, bid, i)) <==> (exists i :: HasRow(prefix, pid, bid, i))
  {
  }
}

=== FILE: picking.dfy ===
/**
 * When picks may still change, and what a participant's submission of a
 * full pick sheet does to the picks table.
 */
module Picking {
  import opened Wrappers
  import opened Calendar
  import opened Models

  /** The kickoff of the first bowl in kickoff order. */
  function EarliestKickoff(bowls: seq<Bowl>): (k: DateTime)
    requires |bowls| > 0
    ensures exists i :: 0 <= i < |bowls| && bowls[i].kickoff == k
    ensures forall i :: 0 <= i < |bowls| ==> InstantKey(k) <= InstantKey(bowls[i].kickoff)
  {
    if |bowls| == 1 then bowls[0].kickoff
    else
      var rest := EarliestKickoff(bowls[1..]);
      assert forall i :: 1 <= i < |bowls| ==> bowls[i] == bowls[1..][i - 1];
      if InstantKey(bowls[0].kickoff) <= InstantKey(rest) then bowls[0].kickoff else rest
  }

  /**
   * `picks_are_locked`, with the clock as the parameter `now`: picks lock
   * as soon as any bowl has kicked off, and never while there are no bowls.
   */
  function PicksAreLocked(now: DateTime, bowls: seq<Bowl>): (locked: bool)
    ensures locked <==> exists i :: 0 <= i < |bowls| && InstantKey(bowls[i].kickoff) <= InstantKey(now)
  {
    if |bowls| > 0 then InstantKey(now) >= InstantKey(EarliestKickoff(bowls)) else false
  }

  /** Once locked, picks stay locked as time goes on. */
  lemma LockIsPermanent(now: DateTime, later: DateTime, bowls: seq<Bowl>)
    requires PicksAreLocked(now, bowls) && InstantKey(now) <= InstantKey(later)
    ensures PicksAreLocked(later, bowls)
  {
    var i :| 0 <= i < |bowls| && InstantKey(bowls[i].kickoff) <= InstantKey(now);
    assert InstantKey(bowls[i].kickoff) <= InstantKey(later);
  }

  /** Index of the first row for (`pid`, `bid`) at or after `from`. */
  function FindRow(t: PickTable, pid: ParticipantId, bid: BowlId, from: nat): (r: Option<nat>)
    requires from <= |t|
    ensures r.Some? ==> from <= r.value && HasRow(t, pid, bid, r.value)
    ensures r.Some? ==> forall j :: from <= j < r.value ==> !HasRow(t, pid, bid, j)
    ensures r.None? ==> forall j :: from <= j ==> !HasRow(t, pid, bid, j)
    decreases |t| - from
  {
    if from == |t| then None
    else if t[from].participant == pid && t[from].bowl == bid then Some(from)
    else FindRow(t, pid, bid, from + 1)
  }

  /**
   * Writes one pick: the existing row for the pair is updated in place,
   * or a new row is appended. Every other pair reads as before.
   */
  function Upsert(t: PickTable, pid: ParticipantId, bid: BowlId, side: Side): (r: PickTable)
    requires UniquePairs(t)
    ensures UniquePairs(r)
    ensures Lookup(r, pid, bid) == Some(side)
    ensures forall q, c :: q != pid || c != bid ==> Lookup(r, q, c) == Lookup(t, q, c)
  {
    var row := Pick(pid, bid, side);
    match FindRow(t, pid, bid, 0)
    case Some(i) =>
      var r := t[i := row];
      assert HasRow(r, pid, bid, i);
      forall q, c | q != pid || c != bid ensures Lookup(r, q, c) == Lookup(t, q, c) {
        assert forall j :: HasRow(r, q, c, j) <==> HasRow(t, q, c, j);
      }
      r
    case None =>
      var r := t + [row];
      assert HasRow(r, pid, bid, |t|);
      forall i, j | 0 <= i < j < |r| ensures r[i].participant != r[j].participant || r[i].bowl != r[j].bowl {
        assert r[i] == t[i];
        if j < |t| {
          assert r[j] == t[j];
        } else {
          assert !HasRow(t, pid, bid, i);
        }
      }
      forall q, c | q != pid || c != bid ensures Lookup(r, q, c) == Lookup(t, q, c) {
        assert forall j :: HasRow(r, q, c, j) <==> HasRow(t, q, c, j);
      }
      r
  }

  /** The form field for a bowl, `None` when the field is absent. */
  function FormValue(form: map<BowlId, string>, bid: BowlId): Option<string> {
    if bid in form then Some(form[bid]) else None
  }

  /** A form value is a pick only when it is exactly `favored` or `opponent`. */
  function ParseSide(v: Option<string>): (r: Option<Side>)
    ensures r == Some(Favored) <==> v == Some("favored")
    ensures r == Some(Opponent) <==> v == Some("opponent")
  {
    if v == Some("favored") then Some(Favored)
    else if v == Some("opponent") then Some(Opponent)
    else None
  }

  predicate BowlListed(bowls: seq<Bowl>, bid: BowlId) {
    exists i :: 0 <= i < |bowls| && bowls[i].id == bid
  }

  /** The submitted value for `bid` is a pick. */
  predicate Answered(form: map<BowlId, string>, bid: BowlId) {
    ParseSide(FormValue(form, bid)).Some?
  }

  /** The ids, in bowl order, of the bowls the form leaves without a pick. */
  function MissingPicks(bowls: seq<Bowl>, form: map<BowlId, string>): (missing: seq<BowlId>)
    ensures forall bid :: bid in missing <==> BowlListed(bowls, bid) && !Answered(form, bid)
    ensures |missing| <= |bowls|
  {
    if |bowls| == 0 then []
    else
      var rest := MissingPicks(bowls[1..], form);
      assert forall bid :: BowlListed(bowls, bid) <==> bowls[0].id == bid || BowlListed(bowls[1..], bid) by {
        forall bid | BowlListed(bowls, bid) && bowls[0].id != bid ensures BowlListed(bowls[1..], bid) {
          var i :| 0 <= i < |bowls| && bowls[i].id == bid;
          assert bowls[1..][i - 1] == bowls[i];
        }
        forall bid | BowlListed(bowls[1..], bid) ensures BowlListed(bowls, bid) {
          var i :| 0 <= i < |bowls[1..]| && bowls[1..][i].id == bid;
          assert bowls[i + 1] == bowls[1..][i];
        }
      }
      if Answered(form, bowls[0].id) then rest else [bowls[0].id] + rest
  }

  /**
   * Saves a complete sheet: afterwards the participant's pick on every
   * listed bowl is the submitted side, and every other pair reads as before.
   */
  function SaveAll(t: PickTable, pid: ParticipantId, bowls: seq<Bowl>, form: map<BowlId, string>): (r: PickTable)
    requires UniquePairs(t)
    requires forall i :: 0 <= i < |bowls| ==> Answered(form, bowls[i].id)
    ensures UniquePairs(r)
    ensures forall i :: 0 <= i < |bowls| ==> Lookup(r, pid, bowls[i].id) == ParseSide(FormValue(form, bowls[i].id))
    ensures forall q, c :: q != pid || !BowlListed(bowls, c) ==> Lookup(r, q, c) == Lookup(t, q, c)
    decreases |bowls|
  {
    if |bowls| == 0 then t
    else
      var b := bowls[0];
      assert Answered(form, b.id);
      var rest := bowls[1..];
      var t1 := Upsert(t, pid, b.id, ParseSide(FormValue(form, b.id)).value);
      assert forall i :: 0 <= i < |rest| ==> rest[i] == bowls[i + 1];
      var r := SaveAll(t1, pid, rest, form);
      forall c | BowlListed(rest, c) ensures BowlListed(bowls, c) {
        var i :| 0 <= i < |rest| && rest[i].id == c;
        assert bowls[i + 1] == rest[i];
      }
      forall i | 0 <= i < |bowls|
        ensures Lookup(r, pid, bowls[i].id) == ParseSide(FormValue(form, bowls[i].id))
      {
        if i > 0 {
          assert bowls[i] == rest[i - 1];
        } else if !BowlListed(rest, b.id) {
          assert Lookup(r, pid, b.id) == Lookup(t1, pid, b.id);
        }
      }
      r
  }

  /** How a submission ended. */
  datatype Submission = Locked | Rejected(missing: seq<BowlId>) | Saved

  datatype SubmitResult = SubmitResult(outcome: Submission, picks: PickTable)

  /**
   * The POST branch of the picks page, all or nothing: while locked, or
   * when any bowl lacks a valid pick, the table is untouched; otherwise
   * the participant's pick on every bowl becomes the submitted side.
   */
  function SubmitPicks(now: DateTime, bowls: seq<Bowl>, t: PickTable, pid: ParticipantId,
                       form: map<BowlId, string>): (r: SubmitResult)
    requires UniquePairs(t)
    ensures r.outcome.Locked? <==> PicksAreLocked(now, bowls)
    ensures r.outcome.Saved? <==>
              !PicksAreLocked(now, bowls) && forall i :: 0 <= i < |bowls| ==> Answered(form, bowls[i].id)
    ensures r.outcome.Rejected? ==>
              |r.outcome.missing| > 0 &&
              forall bid :: bid in r.outcome.missing <==> BowlListed(bowls, bid) && !Answered(form, bid)
    ensures !r.outcome.Saved? ==> r.picks == t
    ensures UniquePairs(r.picks)
    ensures r.outcome.Saved? ==>
              forall i :: 0 <= i < |bowls| ==> Lookup(r.picks, pid, bowls[i].id) == ParseSide(FormValue(form, bowls[i].id))
    ensures r.outcome.Saved? ==>
              forall q, c :: q != pid || !BowlListed(bowls, c) ==> Lookup(r.picks, q, c) == Lookup(t, q, c)
  {
    if PicksAreLocked(now, bowls) then SubmitResult(Locked, t)
    else
      var missing := MissingPicks(bowls, form);
      if |missing| > 0 then
        assert BowlListed(bowls, missing[0]) && !Answered(form, missing[0]);
        SubmitResult(Rejected(missing), t)
      else
        assert forall i :: 0 <= i < |bowls| ==> Answered(form, bowls[i].id) by {
          forall i | 0 <= i < |bowls| ensures Answered(form, bowls[i].id) {
            assert BowlListed(bowls, bowls[i].id);
            assert bowls[i].id !in missing;
          }
        }
        SubmitResult(Saved, SaveAll(t, pid, bowls, form))
  }
}

=== FILE: scoresync.dfy ===
/**
 * The score updater: one run selects the bowls still in play, asks the
 * feed for the dates they span, and writes each bowl's scores and status
 * from its matching event — both scores and the status, or nothing.
 */
module ScoreSync {
  import opened Wrappers
  import opened Text
  import opened Calendar
  import opened Models
  import opened Espn
  import Picking

  /** The `team_scores` dictionary: (team name, score) entries in insertion order. */
  type TeamScores = seq<(string, int)>

  /** Dictionary keys are unique. */
  predicate KeysUnique(d: TeamScores) {
    forall i, j :: 0 <= i < j < |d| ==> d[i].0 != d[j].0
  }

  /** Some entry of `d` is keyed `name`. */
  predicate HasKey(d: TeamScores, name: string) {
    exists i :: 0 <= i < |d| && d[i].0 == name
  }

  /**
   * `d[name] = score`: an existing key takes the new score. (That it keeps
   * its place in the order lives only in the body; with two competitors
   * the order never changes what is written.)
   */
  function PutScore(d: TeamScores, name: string, score: int): (r: TeamScores)
    requires KeysUnique(d)
    ensures KeysUnique(r)
    ensures (name, score) in r
    ensures forall e :: e in r ==> e == (name, score) || (e in d && e.0 != name)
    ensures forall e :: e in d && e.0 != name ==> e in r
    ensures forall n :: HasKey(r, n) <==> n == name || HasKey(d, n)
  {
    if |d| == 0 then [(name, score)]
    else if d[0].0 == name then
      assert forall e :: e in d[1..] ==> e.0 != name by {
        forall j | 1 <= j < |d| ensures d[j].0 != name {
        }
      }
      [(name, score)] + d[1..]
    else
      var rest := PutScore(d[1..], name, score);
      assert forall e :: e in rest ==> e.0 != d[0].0 by {
        forall e | e in rest ensures e.0 != d[0].0 {
          if e != (name, score) {
            var j :| 0 <= j < |d[1..]| && d[1..][j] == e;
            assert d[j + 1] == e;
          }
        }
      }
      [d[0]] + rest
  }

  /** Some competitor is named `name` and carries the number `score`. */
  predicate Reports(cs: seq<Competitor>, name: string, score: int) {
    exists k :: 0 <= k < |cs| && cs[k].teamName == name && cs[k].score == Number(score)
  }

  /**
   * The loop that fills `team_scores`: competitors without a score are
   * skipped, and a score `int()` rejects raises (`None`), abandoning the
   * bowl.
   */
  function CollectScores(cs: seq<Competitor>): (r: Option<TeamScores>)
    ensures r.None? <==> exists k :: 0 <= k < |cs| && cs[k].score.Malformed?
    ensures r.Some? ==> KeysUnique(r.value)
    ensures r.Some? ==> forall e :: e in r.value ==> Reports(cs, e.0, e.1)
    ensures r.Some? ==> forall k :: 0 <= k < |cs| && cs[k].score.Number? ==> HasKey(r.value, cs[k].teamName)
  {
    if |cs| == 0 then Some([])
    else
      var prefix := cs[..|cs| - 1];
      var c := cs[|cs| - 1];
      assert forall k :: 0 <= k < |prefix| ==> prefix[k] == cs[k];
      assert forall n, s :: Reports(prefix, n, s) ==> Reports(cs, n, s);
      match CollectScores(prefix)
      case None => None
      case Some(d) =>
        match c.score
        case NoScore => Some(d)
        case Malformed => None
        case Number(v) =>
          assert Reports(cs, c.teamName, v) by { assert cs[|cs| - 1] == c; }
          Some(PutScore(d, c.teamName, v))
  }

  /** The scores resolved for the two sides of a bowl. */
  datatype SideScores = SideScores(favored: Option<int>, opponent: Option<int>)

  /**
   * The assignment loop: an entry whose name matches the favored team
   * sets the favored score; only an entry that does not match the favored
   * team can set the opponent score. (That a later entry overrides an
   * earlier one lives only in the body; with two competitors it never
   * changes what is written.)
   */
  function AssignSides(d: TeamScores, isFavored: string -> bool, isOpponent: string -> bool): (r: SideScores)
    ensures r.favored.Some? ==> exists i :: 0 <= i < |d| && isFavored(d[i].0) && d[i].1 == r.favored.value
    ensures r.opponent.Some? ==>
              exists i :: 0 <= i < |d| && !isFavored(d[i].0) && isOpponent(d[i].0) && d[i].1 == r.opponent.value
    ensures r.favored.None? <==> forall i :: 0 <= i < |d| ==> !isFavored(d[i].0)
    ensures r.opponent.None? <==> forall i :: 0 <= i < |d| ==> isFavored(d[i].0) || !isOpponent(d[i].0)
  {
    if |d| == 0 then SideScores(None, None)
    else
      var prefix := d[..|d| - 1];
      var (name, score) := d[|d| - 1];
      assert forall i :: 0 <= i < |prefix| ==> prefix[i] == d[i];
      var r := AssignSides(prefix, isFavored, isOpponent);
      if isFavored(name) then SideScores(Some(score), r.opponent)
      else if isOpponent(name) then SideScores(r.favored, Some(score))
      else r
  }

  /** The outcome of `_update_bowl_from_espn`: the bowl afterwards, and whether it was written. */
  datatype BowlUpdate = BowlUpdate(bowl: Bowl, written: bool)

  /** The status a matched competition reports, in the internal vocabulary. */
  function FeedStatus(c: Competition): Status {
    MapEspnStatus(Lower(c.statusName))
  }

  /**
   * `_update_bowl_from_espn`: a bowl is written only when its matching
   * event yields a score for each side, and then exactly its two scores
   * and its status change.
   */
  function UpdateBowl(b: Bowl, events: seq<Event>): (r: BowlUpdate)
    ensures !r.written ==> r.bowl == b
    ensures r.written ==>
              && r.bowl.favoredScore.Some? && r.bowl.opponentScore.Some?
              && r.bowl == b.(favoredScore := r.bowl.favoredScore, opponentScore := r.bowl.opponentScore,
                              status := r.bowl.status)
  {
    match FindMatchingGame(events, b.favoredTeam, b.opponent)
    case None => BowlUpdate(b, false)
    case Some(i) =>
      if |events[i].competitions| == 0 then BowlUpdate(b, false)
      else UpdateFromCompetition(b, events[i].competitions[0], MatchesTeam(b.favoredTeam), MatchesTeam(b.opponent))
  }

  /** `_teams_match(name, team)` as a test on feed names. */
  function MatchesTeam(team: string): string -> bool {
    n => TeamsMatch(n, team)
  }

  /**
   * The part of the update that reads the first competition of the
   * matching event, given the tests that recognise each side's name.
   */
  function UpdateFromCompetition(b: Bowl, c: Competition, isFavored: string -> bool, isOpponent: string -> bool)
    : (r: BowlUpdate)
    ensures !r.written ==> r.bowl == b
    ensures r.written ==>
              && r.bowl.favoredScore.Some? && r.bowl.opponentScore.Some?
              && r.bowl == b.(favoredScore := r.bowl.favoredScore, opponentScore := r.bowl.opponentScore,
                              status := r.bowl.status)
  {
    if |c.competitors| != 2 then BowlUpdate(b, false)
    else
      match CollectScores(c.competitors)
      case None => BowlUpdate(b, false)
      case Some(d) =>
        var s := AssignSides(d, isFavored, isOpponent);
        if s.favored.Some? && s.opponent.Some? then
          BowlUpdate(b.(favoredScore := s.favored, opponentScore := s.opponent, status := FeedStatus(c)), true)
        else
          BowlUpdate(b, false)
  }

  /**
   * Where a competition's written values come from: its status, a
   * competitor whose name is the favored team's, and a competitor whose
   * name is the opponent's but not the favored team's.
   */
  lemma CompetitionValues(b: Bowl, c: Competition, isFavored: string -> bool, isOpponent: string -> bool)
    requires UpdateFromCompetition(b, c, isFavored, isOpponent).written
    ensures var u := UpdateFromCompetition(b, c, isFavored, isOpponent).bowl;
            && |c.competitors| == 2
            && u.status == FeedStatus(c)
            && (exists k :: 0 <= k < |c.competitors| && isFavored(c.competitors[k].teamName)
                  && c.competitors[k].score == Number(u.favoredScore.value))
            && (exists k :: 0 <= k < |c.competitors| && !isFavored(c.competitors[k].teamName)
                  && isOpponent(c.competitors[k].teamName)
                  && c.competitors[k].score == Number(u.opponentScore.value))
  {
    ScoresComeFromCompetitors(c.competitors, isFavored, isOpponent);
  }

  /** Each side's score is the number some competitor of that side reported. */
  lemma ScoresComeFromCompetitors(cs: seq<Competitor>, isFavored: string -> bool, isOpponent: string -> bool)
    requires CollectScores(cs).Some?
    ensures var s := AssignSides(CollectScores(cs).value, isFavored, isOpponent);
            && (s.favored.Some? ==>
                  exists k :: 0 <= k < |cs| && isFavored(cs[k].teamName) && cs[k].score == Number(s.favored.value))
            && (s.opponent.Some? ==>
                  exists k :: 0 <= k < |cs| && !isFavored(cs[k].teamName) && isOpponent(cs[k].teamName)
                    && cs[k].score == Number(s.opponent.value))
  {
    var d := CollectScores(cs).value;
    assert forall i :: 0 <= i < |d| ==> Reports(cs, d[i].0, d[i].1) by {
      forall i | 0 <= i < |d| ensures Reports(cs, d[i].0, d[i].1) {
        assert d[i] in d;
      }
    }
  }

  /**
   * A side gets a score exactly when some competitor with a numeric score
   * belongs to it (for the opponent: matches the opponent but not the
   * favored team).
   */
  lemma SidesFoundExactlyWhen(cs: seq<Competitor>, isFavored: string -> bool, isOpponent: string -> bool)
    requires CollectScores(cs).Some?
    ensures var s := AssignSides(CollectScores(cs).value, isFavored, isOpponent);
            && (s.favored.Some? <==> exists k :: 0 <= k < |cs| && cs[k].score.Number? && isFavored(cs[k].teamName))
            && (s.opponent.Some? <==>
                  exists k :: 0 <= k < |cs| && cs[k].score.Number? && !isFavored(cs[k].teamName)
                    && isOpponent(cs[k].teamName))
  {
    var d := CollectScores(cs).value;
    assert forall i :: 0 <= i < |d| ==> Reports(cs, d[i].0, d[i].1) by {
      forall i | 0 <= i < |d| ensures Reports(cs, d[i].0, d[i].1) {
        assert d[i] in d;
      }
    }
  }

  /**
   * When a competition is written: it has exactly two competitors, every
   * score is an integer, some scored competitor passes the favored team's
   * test, and some scored competitor passes the opponent's test but not the
   * favored team's. `UpdateBowl` uses `MatchesTeam` of each team as the tests.
   */
  lemma WrittenExactlyWhen(b: Bowl, c: Competition, isFavored: string -> bool, isOpponent: string -> bool)
    ensures UpdateFromCompetition(b, c, isFavored, isOpponent).written <==>
              && |c.competitors| == 2
              && (forall k :: 0 <= k < |c.competitors| ==> !c.competitors[k].score.Malformed?)
              && (exists k :: 0 <= k < |c.competitors| && c.competitors[k].score.Number?
                    && isFavored(c.competitors[k].teamName))
              && (exists k :: 0 <= k < |c.competitors| && c.competitors[k].score.Number?
                    && !isFavored(c.competitors[k].teamName) && isOpponent(c.competitors[k].teamName))
  {
    if |c.competitors| == 2 && CollectScores(c.competitors).Some? {
      SidesFoundExactlyWhen(c.competitors, isFavored, isOpponent);
    }
  }

  /**
   * A bowl without a matching event is not written; otherwise its update
   * is the one read from the first competition of the first matching event.
   */
  lemma UpdateReadsMatchedCompetition(b: Bowl, events: seq<Event>)
    ensures var m := FindMatchingGame(events, b.favoredTeam, b.opponent);
            && (m.None? ==> UpdateBowl(b, events) == BowlUpdate(b, false))
            && (m.Some? ==>
                  && |events[m.value].competitions| > 0
                  && UpdateBowl(b, events)
                     == UpdateFromCompetition(b, events[m.value].competitions[0],
                                              MatchesTeam(b.favoredTeam), MatchesTeam(b.opponent)))
  {
  }

  /**
   * What a bowl's update does depends only on its two team names: bowls
   * that agree on them are written alike.
   */
  lemma UpdateDependsOnNames(b1: Bowl, b2: Bowl, events: seq<Event>)
    requires b1.favoredTeam == b2.favoredTeam && b1.opponent == b2.opponent
    ensures UpdateBowl(b1, events).written == UpdateBowl(b2, events).written
    ensures UpdateBowl(b1, events).written ==>
              var u1 := UpdateBowl(b1, events).bowl;
              var u2 := UpdateBowl(b2, events).bowl;
              u1.favoredScore == u2.favoredScore && u1.opponentScore == u2.opponentScore && u1.status == u2.status
  {
  }

  /** Updating an updated bowl again from the same events changes nothing. */
  lemma UpdateBowlIdempotent(b: Bowl, events: seq<Event>)
    ensures UpdateBowl(UpdateBowl(b, events).bowl, events).bowl == UpdateBowl(b, events).bowl
  {
    var u := UpdateBowl(b, events);
    UpdateDependsOnNames(b, u.bowl, events);
  }

  /** The bowls the updater looks at: those not yet final or canceled. */
  predicate Active(b: Bowl) {
    b.status == NotStarted || b.status == InProgress
  }

  /** The `status in ('not_started', 'in_progress')` query, in table order. */
  function ActiveBowls(bowls: seq<Bowl>): (r: seq<Bowl>)
    ensures forall b :: b in r <==> b in bowls && Active(b)
    ensures |r| <= |bowls|
  {
    if |bowls| == 0 then []
    else
      var rest := ActiveBowls(bowls[1..]);
      assert forall b :: b in bowls <==> b == bowls[0] || b in bowls[1..];
      if Active(bowls[0]) then [bowls[0]] + rest else rest
  }

  /** A run's result: the bowls afterwards and how many were written. */
  datatype SyncResult = SyncResult(bowls: seq<Bowl>, updated: nat)

  /** How many of the active bowls `update` writes. */
  function WrittenCount(bowls: seq<Bowl>, update: Bowl -> BowlUpdate): nat {
    if |bowls| == 0 then 0
    else
      var b := bowls[|bowls| - 1];
      WrittenCount(bowls[..|bowls| - 1], update) + if Active(b) && update(b).written then 1 else 0
  }

  /**
   * The per-bowl loop, for the per-bowl `update`: every active bowl is
   * updated, every other bowl kept, and the written ones counted.
   */
  function UpdateEach(bowls: seq<Bowl>, update: Bowl -> BowlUpdate): (r: SyncResult)
    ensures |r.bowls| == |bowls|
    ensures forall i :: 0 <= i < |bowls| ==>
              r.bowls[i] == if Active(bowls[i]) then update(bowls[i]).bowl else bowls[i]
    ensures r.updated == WrittenCount(bowls, update)
  {
    if |bowls| == 0 then SyncResult([], 0)
    else
      var prefix := bowls[..|bowls| - 1];
      var b := bowls[|bowls| - 1];
      var r := UpdateEach(prefix, update);
      var u := if Active(b) then update(b) else BowlUpdate(b, false);
      var after := r.bowls + [u.bowl];
      assert forall i :: 0 <= i < |prefix| ==> after[i] == r.bowls[i] && bowls[i] == prefix[i];
      SyncResult(after, r.updated + if u.written then 1 else 0)
  }

  /**
   * The body of `update_scores` once the feed has answered with `events`:
   * nothing happens without active bowls or without events; otherwise
   * each active bowl is updated. Final and canceled bowls never change.
   */
  function ApplyFeed(bowls: seq<Bowl>, events: seq<Event>): (r: SyncResult)
    ensures |r.bowls| == |bowls|
    ensures forall i :: 0 <= i < |bowls| && !Active(bowls[i]) ==> r.bowls[i] == bowls[i]
    ensures |events| == 0 ==> r.bowls == bowls && r.updated == 0
    ensures forall i :: 0 <= i < |bowls| && Active(bowls[i]) ==> r.bowls[i] == UpdateBowl(bowls[i], events).bowl
  {
    if |ActiveBowls(bowls)| == 0 || |events| == 0 then
      assert forall i :: 0 <= i < |bowls| ==> !Active(bowls[i]) || UpdateBowl(bowls[i], events).bowl == bowls[i] by {
        forall i | 0 <= i < |bowls| && Active(bowls[i]) ensures UpdateBowl(bowls[i], events).bowl == bowls[i] {
          assert bowls[i] in bowls;
        }
      }
      SyncResult(bowls, 0)
    else
      UpdateEach(bowls, b => UpdateBowl(b, events))
  }

  /** Applying the same events a second time leaves the bowls as the first time did. */
  lemma ApplyFeedIdempotent(bowls: seq<Bowl>, events: seq<Event>)
    ensures ApplyFeed(ApplyFeed(bowls, events).bowls, events).bowls == ApplyFeed(bowls, events).bowls
  {
    var once := ApplyFeed(bowls, events).bowls;
    var twice := ApplyFeed(once, events).bowls;
    forall i | 0 <= i < |bowls| ensures twice[i] == once[i] {
      if Active(once[i]) {
        if Active(bowls[i]) {
          UpdateBowlIdempotent(bowls[i], events);
        }
      }
    }
  }

  /** The latest kickoff among `bowls`. */
  function LatestKickoff(bowls: seq<Bowl>): (k: DateTime)
    requires |bowls| > 0
    ensures exists i :: 0 <= i < |bowls| && bowls[i].kickoff == k
    ensures forall i :: 0 <= i < |bowls| ==> InstantKey(bowls[i].kickoff) <= InstantKey(k)
  {
    if |bowls| == 1 then bowls[0].kickoff
    else
      var rest := LatestKickoff(bowls[1..]);
      assert forall i :: 1 <= i < |bowls| ==> bowls[i] == bowls[1..][i - 1];
      if InstantKey(bowls[0].kickoff) >= InstantKey(rest) then bowls[0].kickoff else rest
  }

  /** An earlier-or-equal instant falls on an earlier-or-equal date. */
  lemma InstantOrderGivesDateOrder(a: DateTime, b: DateTime)
    requires ValidDateTime(a) && ValidDateTime(b) && InstantKey(a) <= InstantKey(b)
    ensures !DateBefore(b.date, a.date)
  {
    DayKeyOrder(b.date, a.date);
  }

  /** The query's date range: the first day asked for and the day after the last. */
  datatype DateRange = DateRange(start: Date, end: Date)

  /**
   * The range of `_fetch_espn_games`: from the date of the earliest
   * kickoff to the day after the date of the latest one. `None` is the
   * overflow past 9999-12-31, which aborts the run.
   */
  function QueryRange(active: seq<Bowl>): (r: Option<DateRange>)
    requires |active| > 0
    requires forall i :: 0 <= i < |active| ==> ValidDateTime(active[i].kickoff)
    ensures r.None? <==> exists i :: 0 <= i < |active| && active[i].kickoff.date == Date(MaxYear, 12, 31)
    ensures r.Some? ==> ValidDate(r.value.start) && ValidDate(r.value.end) && DateBefore(r.value.start, r.value.end)
    ensures r.Some? ==> exists i :: 0 <= i < |active| && active[i].kickoff.date == r.value.start
    ensures r.Some? ==> forall i :: 0 <= i < |active| ==>
              !DateBefore(active[i].kickoff.date, r.value.start) && DateBefore(active[i].kickoff.date, r.value.end)
    ensures r.Some? ==> exists i :: (0 <= i < |active| && ValidDate(active[i].kickoff.date)
                                      && NextDay(active[i].kickoff.date) == Some(r.value.end))
  {
    var first := Picking.EarliestKickoff(active);
    var last := LatestKickoff(active);
    KickoffDateBounds(active, first, last);
    match NextDay(last.date)
    case None => None
    case Some(end) =>
      forall k | 0 <= k < |active| ensures DateBefore(active[k].kickoff.date, end) {
        DayKeyOrder(active[k].kickoff.date, last.date);
        DayKeyOrder(last.date, end);
        DayKeyOrder(active[k].kickoff.date, end);
      }
      DateBeforeTransitive(first.date, last.date, end);
      ghost var j :| 0 <= j < |active| && active[j].kickoff == last;
      assert NextDay(active[j].kickoff.date) == Some(end);
      Some(DateRange(first.date, end))
  }

  /** The earliest and latest kickoffs bound every kickoff date. */
  lemma KickoffDateBounds(active: seq<Bowl>, first: DateTime, last: DateTime)
    requires forall i :: 0 <= i < |active| ==> ValidDateTime(active[i].kickoff)
    requires exists i :: 0 <= i < |active| && active[i].kickoff == first
    requires exists i :: 0 <= i < |active| && active[i].kickoff == last
    requires forall i :: 0 <= i < |active| ==> InstantKey(first) <= InstantKey(active[i].kickoff)
    requires forall i :: 0 <= i < |active| ==> InstantKey(active[i].kickoff) <= InstantKey(last)
    ensures ValidDateTime(first) && ValidDateTime(last)
    ensures forall k :: 0 <= k < |active| ==>
              !DateBefore(active[k].kickoff.date, first.date) && !DateBefore(last.date, active[k].kickoff.date)
    ensures (exists k :: 0 <= k < |active| && active[k].kickoff.date == Date(MaxYear, 12, 31))
              <==> last.date == Date(MaxYear, 12, 31)
  {
    var i :| 0 <= i < |active| && active[i].kickoff == first;
    var j :| 0 <= j < |active| && active[j].kickoff == last;
    forall k | 0 <= k < |active|
      ensures !DateBefore(active[k].kickoff.date, first.date)
      ensures !DateBefore(last.date, active[k].kickoff.date)
    {
      InstantOrderGivesDateOrder(first, active[k].kickoff);
      InstantOrderGivesDateOrder(active[k].kickoff, last);
    }
  }

  lemma DateBeforeTransitive(a: Date, b: Date, c: Date)
    requires ValidDate(a) && ValidDate(b) && ValidDate(c)
    requires !DateBefore(b, a) && DateBefore(b, c)
    ensures DateBefore(a, c)
  {
    DayKeyOrder(a, b);
    DayKeyOrder(b, a);
    DayKeyOrder(b, c);
    DayKeyOrder(a, c);
  }

  /** The `dates` query parameter: `YYYYMMDD-YYYYMMDD`. */
  function DateParam(range: DateRange): (p: string)
    requires ValidDate(range.start) && ValidDate(range.end)
    ensures |p| == 17 && p[8] == '-'
  {
    FormatDate(range.start) + "-" + FormatDate(range.end)
  }

  /** The parameter determines the range: both dates read back from it. */
  lemma DateParamRoundTrip(range: DateRange)
    requires ValidDate(range.start) && ValidDate(range.end)
    ensures var p := DateParam(range);
            ParseDate(p[..8]) == range.start && ParseDate(p[9..]) == range.end
  {
    var p := DateParam(range);
    assert p[..8] == FormatDate(range.start);
    assert p[9..] == FormatDate(range.end);
    FormatDateRoundTrip(range.start);
    FormatDateRoundTrip(range.end);
  }

  /**
   * `update_scores`, with the feed as the parameter `feed` (it maps the
   * `dates` parameter to the events returned, the empty sequence when the
   * fetch fails). Final and canceled bowls never change; a feed with no
   * events changes nothing.
   */
  function UpdateScores(bowls: seq<Bowl>, feed: string -> seq<Event>): (r: SyncResult)
    requires forall i :: 0 <= i < |bowls| ==> ValidDateTime(bowls[i].kickoff)
    ensures |r.bowls| == |bowls|
    ensures forall i :: 0 <= i < |bowls| && !Active(bowls[i]) ==> r.bowls[i] == bowls[i]
    ensures (forall p :: |feed(p)| == 0) ==> r.bowls == bowls
    ensures (forall i :: 0 <= i < |bowls| ==> !Active(bowls[i])) ==> r == SyncResult(bowls, 0)
  {
    var active := ActiveBowls(bowls);
    if |active| == 0 then
      assert forall i :: 0 <= i < |bowls| ==> !Active(bowls[i]) by {
        forall i | 0 <= i < |bowls| ensures !Active(bowls[i]) {
          assert bowls[i] in bowls;
        }
      }
      SyncResult(bowls, 0)
    else
      ActiveKickoffsValid(bowls, active);
      match QueryRange(active)
      case None => SyncResult(bowls, 0)
      case Some(range) =>
        var p := DateParam(range);
        ApplyFeed(bowls, feed(p))
  }

  /** Every bowl the query selects has a valid kickoff. */
  lemma ActiveKickoffsValid(bowls: seq<Bowl>, active: seq<Bowl>)
    requires forall i :: 0 <= i < |bowls| ==> ValidDateTime(bowls[i].kickoff)
    requires active == ActiveBowls(bowls)
    ensures forall i :: 0 <= i < |active| ==> ValidDateTime(active[i].kickoff) && Active(active[i])
    ensures forall i :: 0 <= i < |bowls| && Active(bowls[i]) ==> bowls[i] in active
  {
    forall i | 0 <= i < |active| ensures ValidDateTime(active[i].kickoff) && Active(active[i]) {
      assert active[i] in active;
    }
    forall i | 0 <= i < |bowls| && Active(bowls[i]) ensures bowls[i] in active {
      assert bowls[i] in bowls;
    }
  }

  /**
   * A run with an active bowl whose kickoff date is the last representable
   * day stops when it computes the day after it, and changes nothing.
   */
  lemma LastDayAborts(bowls: seq<Bowl>, feed: string -> seq<Event>, i: int)
    requires forall i :: 0 <= i < |bowls| ==> ValidDateTime(bowls[i].kickoff)
    requires 0 <= i < |bowls| && Active(bowls[i]) && bowls[i].kickoff.date == Date(MaxYear, 12, 31)
    ensures UpdateScores(bowls, feed) == SyncResult(bowls, 0)
  {
    var active := ActiveBowls(bowls);
    ActiveKickoffsValid(bowls, active);
    assert bowls[i] in active;
    assert QueryRange(active).None?;
  }

  /**
   * Otherwise a run with an active bowl queries the feed once, for a range
   * that starts on the earliest active kickoff date and ends on the day
   * after the latest, and applies what the feed returns.
   */
  lemma RunQueriesActiveRange(bowls: seq<Bowl>, feed: string -> seq<Event>)
    requires forall i :: 0 <= i < |bowls| ==> ValidDateTime(bowls[i].kickoff)
    requires exists i :: 0 <= i < |bowls| && Active(bowls[i])
    requires forall i :: 0 <= i < |bowls| && Active(bowls[i]) ==> bowls[i].kickoff.date != Date(MaxYear, 12, 31)
    ensures exists range: DateRange ::
              && ValidDate(range.start) && ValidDate(range.end)
              && (exists i :: 0 <= i < |bowls| && Active(bowls[i]) && bowls[i].kickoff.date == range.start)
              && (forall i :: 0 <= i < |bowls| && Active(bowls[i]) ==>
                    !DateBefore(bowls[i].kickoff.date, range.start) && DateBefore(bowls[i].kickoff.date, range.end))
              && (exists i :: && 0 <= i < |bowls| && Active(bowls[i]) && ValidDate(bowls[i].kickoff.date)
                              && NextDay(bowls[i].kickoff.date) == Some(range.end))
              && UpdateScores(bowls, feed) == ApplyFeed(bowls, feed(DateParam(range)))
  {
    var active := ActiveBowls(bowls);
    ActiveKickoffsValid(bowls, active);
    var q := ActiveRangeExists(bowls, active);
    ActiveRangeFacts(bowls, active, q);
    assert UpdateScores(bowls, feed) == ApplyFeed(bowls, feed(DateParam(q)));
  }

  /** Without an active bowl on the last day, the query range exists. */
  lemma ActiveRangeExists(bowls: seq<Bowl>, active: seq<Bowl>) returns (range: DateRange)
    requires forall i :: 0 <= i < |bowls| ==> ValidDateTime(bowls[i].kickoff)
    requires active == ActiveBowls(bowls)
    requires exists i :: 0 <= i < |bowls| && Active(bowls[i])
    requires forall i :: 0 <= i < |bowls| && Active(bowls[i]) ==> bowls[i].kickoff.date != Date(MaxYear, 12, 31)
    ensures |active| > 0 && forall i :: 0 <= i < |active| ==> ValidDateTime(active[i].kickoff)
    ensures QueryRange(active) == Some(range)
  {
    ActiveKickoffsValid(bowls, active);
    var j :| 0 <= j < |bowls| && Active(bowls[j]);
    assert bowls[j] in active;
    var q := QueryRange(active);
    if q.None? {
      assert false;
    }
    range := q.value;
  }

  /** The range computed for the active bowls, stated over all bowls. */
  lemma ActiveRangeFacts(bowls: seq<Bowl>, active: seq<Bowl>, range: DateRange)
    requires forall i :: 0 <= i < |bowls| ==> ValidDateTime(bowls[i].kickoff)
    requires active == ActiveBowls(bowls) && |active| > 0
    requires forall i :: 0 <= i < |active| ==> ValidDateTime(active[i].kickoff)
    requires QueryRange(active) == Some(range)
    ensures ValidDate(range.start) && ValidDate(range.end)
    ensures exists i :: 0 <= i < |bowls| && Active(bowls[i]) && bowls[i].kickoff.date == range.start
    ensures forall i :: 0 <= i < |bowls| && Active(bowls[i]) ==>
              !DateBefore(bowls[i].kickoff.date, range.start) && DateBefore(bowls[i].kickoff.date, range.end)
    ensures exists i :: && 0 <= i < |bowls| && Active(bowls[i]) && ValidDate(bowls[i].kickoff.date)
                        && NextDay(bowls[i].kickoff.date) == Some(range.end)
  {
    ActiveKickoffsValid(bowls, active);
    var m :| 0 <= m < |active| && active[m].kickoff.date == range.start;
    assert active[m] in active;
    var n :| 0 <= n < |active| && ValidDate(active[n].kickoff.date) && NextDay(active[n].kickoff.date) == Some(range.end);
    assert active[n] in active;
    forall i | 0 <= i < |bowls| && Active(bowls[i])
      ensures !DateBefore(bowls[i].kickoff.date, range.start) && DateBefore(bowls[i].kickoff.date, range.end)
    {
      InRange(active, range, bowls[i]);
    }
  }

  /** Every selected bowl kicks off within the range. */
  lemma InRange(active: seq<Bowl>, range: DateRange, b: Bowl)
    requires |active| > 0 && forall i :: 0 <= i < |active| ==> ValidDateTime(active[i].kickoff)
    requires QueryRange(active) == Some(range)
    requires b in active
    ensures !DateBefore(b.kickoff.date, range.start) && DateBefore(b.kickoff.date, range.end)
  {
    var l :| 0 <= l < |active| && active[l] == b;
  }
}

=== FILE: scoring.dfy ===
/**
 * The zero-sum leaderboard: on every decided bowl each participant who
 * picked the winning side collects one point from each participant who
 * picked the other side. Every participant is scored, active or not.
 */
module Scoring {
  import opened Wrappers
  import opened Models

  /** `pid` is the id of some participant in `ps`. */
  predicate Enrolled(ps: seq<Participant>, pid: ParticipantId) {
    exists i :: 0 <= i < |ps| && ps[i].id == pid
  }

  /** The bowls table's primary key. */
  predicate DistinctBowls(bs: seq<Bowl>) {
    forall i, j :: 0 <= i < j < |bs| ==> bs[i].id != bs[j].id
  }

  /** How many entries of `ps` picked `side` on bowl `bid`. */
  function Count(ps: seq<Participant>, t: PickTable, bid: BowlId, side: Side): nat {
    if |ps| == 0 then 0
    else (Count(ps[..|ps| - 1], t, bid, side)
          + if Lookup(t, ps[|ps| - 1].id, bid) == Some(side) then 1 else 0)
  }

  /** How many entries of `ps` have any pick on bowl `bid`. */
  function CountPicked(ps: seq<Participant>, t: PickTable, bid: BowlId): nat {
    if |ps| == 0 then 0
    else (CountPicked(ps[..|ps| - 1], t, bid)
          + if Lookup(t, ps[|ps| - 1].id, bid).Some? then 1 else 0)
  }

  /** Every pick is on one side or the other. */
  lemma {:induction false} CountsPartitionPicks(ps: seq<Participant>, t: PickTable, bid: BowlId)
    ensures Count(ps, t, bid, Favored) + Count(ps, t, bid, Opponent) == CountPicked(ps, t, bid)
  {
    if |ps| > 0 {
      CountsPartitionPicks(ps[..|ps| - 1], t, bid);
      var picked := Lookup(t, ps[|ps| - 1].id, bid);
      SideCases(picked, Favored);
    }
  }

  /** A pick, if any, is on side `w` or on the other one. */
  lemma SideCases(picked: Option<Side>, w: Side)
    ensures picked.None? || picked == Some(w) || picked == Some(OtherSide(w))
  {
    match picked
    case None =>
    case Some(s) =>
      match s
      case Favored =>
      case Opponent =>
  }

  /** The winners and losers lists built for one decided bowl. */
  datatype Tally = Tally(winners: seq<ParticipantId>, losers: seq<ParticipantId>)

  /**
   * Walks the participants in order: a pick equal to the winning side
   * makes a winner, any other pick a loser, no pick neither.
   */
  function TallyPicks(ps: seq<Participant>, t: PickTable, bid: BowlId, w: Side): (r: Tally)
    ensures forall pid :: pid in r.winners <==> Enrolled(ps, pid) && Lookup(t, pid, bid) == Some(w)
    ensures forall pid :: pid in r.losers <==> Enrolled(ps, pid) && Lookup(t, pid, bid) == Some(OtherSide(w))
    ensures |r.winners| == Count(ps, t, bid, w)
    ensures |r.losers| == Count(ps, t, bid, OtherSide(w))
  {
    if |ps| == 0 then Tally([], [])
    else
      var prefix := ps[..|ps| - 1];
      var p := ps[|ps| - 1];
      assert forall pid :: Enrolled(ps, pid) <==> Enrolled(prefix, pid) || pid == p.id by {
        forall pid | Enrolled(ps, pid) && pid != p.id ensures Enrolled(prefix, pid) {
          var i :| 0 <= i < |ps| && ps[i].id == pid;
          assert prefix[i] == ps[i];
        }
        forall pid | Enrolled(prefix, pid) ensures Enrolled(ps, pid) {
          var i :| 0 <= i < |prefix| && prefix[i].id == pid;
          assert ps[i] == prefix[i];
        }
        assert ps[|ps| - 1].id == p.id;
      }
      var r := TallyPicks(prefix, t, bid, w);
      var picked := Lookup(t, p.id, bid);
      if picked == Some(w) then Tally(r.winners + [p.id], r.losers)
      else if picked.Some? then
        SideCases(picked, w);
        Tally(r.winners, r.losers + [p.id])
      else r
  }

  /**
   * The points participant `pid` earns on bowl `b`: nothing unless the
   * bowl is decided; then the number of opposite picks for a right pick,
   * minus the number of right picks for a wrong one, and nothing without
   * a pick.
   */
  function PointsOn(ps: seq<Participant>, t: PickTable, b: Bowl, pid: ParticipantId): (r: int)
    ensures !Enrolled(ps, pid) ==> r == 0
    ensures GetWinner(b).None? || GetWinner(b) == Some(Push) ==> r == 0
    ensures Lookup(t, pid, b.id).None? ==> r == 0
    ensures Enrolled(ps, pid) && GetWinner(b).Some? && GetWinner(b).value.Won? ==>
      var w := GetWinner(b).value.side;
      && (Lookup(t, pid, b.id) == Some(w) ==> r == Count(ps, t, b.id, OtherSide(w)))
      && (Lookup(t, pid, b.id) == Some(OtherSide(w)) ==> r == -(Count(ps, t, b.id, w) as int))
  {
    match GetWinner(b)
    case None => 0
    case Some(Push) => 0
    case Some(Won(w)) =>
      var tally := TallyPicks(ps, t, b.id, w);
      if pid in tally.winners then |tally.losers|
      else if pid in tally.losers then -|tally.winners|
      else 0
  }

  /** The points on bowl `b` of the entries of `qs`, added up. */
  function SumPoints(ps: seq<Participant>, qs: seq<Participant>, t: PickTable, b: Bowl): int {
    if |qs| == 0 then 0
    else SumPoints(ps, qs[..|qs| - 1], t, b) + PointsOn(ps, t, b, qs[|qs| - 1].id)
  }

  /** Over a prefix of the participants, a decided bowl's points are counted exchanges. */
  lemma {:induction false} SumPointsByCounts(ps: seq<Participant>, n: nat, t: PickTable, b: Bowl, w: Side)
    requires n <= |ps| && GetWinner(b) == Some(Won(w))
    ensures SumPoints(ps, ps[..n], t, b) ==
      Count(ps, t, b.id, OtherSide(w)) * Count(ps[..n], t, b.id, w)
      - Count(ps, t, b.id, w) * Count(ps[..n], t, b.id, OtherSide(w))
  {
    if n > 0 {
      var qs := ps[..n];
      var prev := ps[..n - 1];
      assert qs[..n - 1] == prev;
      SumPointsByCounts(ps, n - 1, t, b, w);
      var q := ps[n - 1];
      assert qs[n - 1] == q;
      assert Enrolled(ps, q.id);
      var l: int := Count(ps, t, b.id, OtherSide(w));
      var k: int := Count(ps, t, b.id, w);
      var picked := Lookup(t, q.id, b.id);
      SideCases(picked, w);
      var dw: int := if picked == Some(w) then 1 else 0;
      var dl: int := if picked == Some(OtherSide(w)) then 1 else 0;
      assert Count(qs, t, b.id, w) == Count(prev, t, b.id, w) + dw;
      assert Count(qs, t, b.id, OtherSide(w)) == Count(prev, t, b.id, OtherSide(w)) + dl;
      assert PointsOn(ps, t, b, q.id) == l * dw - k * dl;
      var cw: int := Count(prev, t, b.id, w);
      var cl: int := Count(prev, t, b.id, OtherSide(w));
      var sp := SumPoints(ps, prev, t, b);
      assert sp == l * cw - k * cl;
      assert SumPoints(ps, qs, t, b) == sp + (l * dw - k * dl);
      Distribute(l, cw, dw, k, cl, dl);
    }
  }

  lemma Distribute(l: int, c: int, dc: int, k: int, d: int, dd: int)
    ensures l * (c + dc) - k * (d + dd) == (l * c - k * d) + (l * dc - k * dd)
  {
  }

  /** Zero-sum: on every bowl the participants' points add up to nothing. */
  lemma BowlZeroSum(ps: seq<Participant>, t: PickTable, b: Bowl)
    ensures SumPoints(ps, ps, t, b) == 0
  {
    var winner := GetWinner(b);
    if winner.Some? && winner.value.Won? {
      var w := winner.value.side;
      SumPointsByCounts(ps, |ps|, t, b, w);
      assert ps[..|ps|] == ps;
      var l := Count(ps, t, b.id, OtherSide(w));
      var k := Count(ps, t, b.id, w);
      assert l * k - k * l == 0;
    } else {
      UnsettledSumsToZero(ps, ps, t, b);
    }
  }

  lemma {:induction false} UnsettledSumsToZero(ps: seq<Participant>, qs: seq<Participant>, t: PickTable, b: Bowl)
    requires GetWinner(b).None? || GetWinner(b) == Some(Push)
    ensures SumPoints(ps, qs, t, b) == 0
  {
    if |qs| > 0 {
      UnsettledSumsToZero(ps, qs[..|qs| - 1], t, b);
    }
  }

  /** A participant's total: the points earned on every bowl, added up. */
  function Total(ps: seq<Participant>, bowls: seq<Bowl>, t: PickTable, pid: ParticipantId): int {
    if |bowls| == 0 then 0
    else Total(ps, bowls[..|bowls| - 1], t, pid) + PointsOn(ps, t, bowls[|bowls| - 1], pid)
  }

  /** The per-bowl points of one participant, keyed by bowl id. */
  function PointsByBowl(ps: seq<Participant>, bowls: seq<Bowl>, t: PickTable, pid: ParticipantId): (m: map<BowlId, int>)
    ensures m.Keys == set b | b in bowls :: b.id
  {
    if |bowls| == 0 then map[]
    else
      var prefix := bowls[..|bowls| - 1];
      var b := bowls[|bowls| - 1];
      assert (set c | c in bowls :: c.id) == (set c | c in prefix :: c.id) + {b.id} by {
        assert bowls == prefix + [b];
      }
      PointsByBowl(ps, prefix, t, pid)[b.id := PointsOn(ps, t, b, pid)]
  }

  /** One participant's line of the leaderboard. */
  datatype ScoreRow = ScoreRow(byBowl: map<BowlId, int>, total: int)

  /**
   * `calculate_scores`: a row for every participant holding an entry
   * for every bowl, each entry the points on that bowl, and the total.
   */
  function CalculateScores(ps: seq<Participant>, bowls: seq<Bowl>, t: PickTable): (r: map<ParticipantId, ScoreRow>)
    requires DistinctBowls(bowls)
    ensures r.Keys == set p | p in ps :: p.id
    ensures forall pid :: pid in r ==> r[pid].byBowl.Keys == set b | b in bowls :: b.id
    ensures forall pid, i :: pid in r && 0 <= i < |bowls| ==>
              r[pid].byBowl[bowls[i].id] == PointsOn(ps, t, bowls[i], pid)
    ensures forall pid :: pid in r ==> r[pid].total == Total(ps, bowls, t, pid)
  {
    var ids := set p | p in ps :: p.id;
    ByBowlEntries(ps, bowls, t);
    map pid | pid in ids :: ScoreRow(PointsByBowl(ps, bowls, t, pid), Total(ps, bowls, t, pid))
  }

  lemma {:induction false} ByBowlEntries(ps: seq<Participant>, bowls: seq<Bowl>, t: PickTable)
    requires DistinctBowls(bowls)
    ensures forall pid, i :: 0 <= i < |bowls| ==>
              PointsByBowl(ps, bowls, t, pid)[bowls[i].id] == PointsOn(ps, t, bowls[i], pid)
  {
    if |bowls| > 0 {
      var prefix := bowls[..|bowls| - 1];
      ByBowlEntries(ps, prefix, t);
      forall pid, i | 0 <= i < |bowls|
        ensures PointsByBowl(ps, bowls, t, pid)[bowls[i].id] == PointsOn(ps, t, bowls[i], pid)
      {
        if i < |bowls| - 1 {
          assert prefix[i] == bowls[i];
        }
      }
    }
  }

  /** The totals of the entries of `qs`, added up. */
  function SumTotals(ps: seq<Participant>, qs: seq<Participant>, bowls: seq<Bowl>, t: PickTable): int {
    if |qs| == 0 then 0
    else SumTotals(ps, qs[..|qs| - 1], bowls, t) + Total(ps, bowls, t, qs[|qs| - 1].id)
  }

  /** Adding one bowl adds that bowl's points to the sum of totals. */
  lemma {:induction false} SumTotalsSnoc(ps: seq<Participant>, qs: seq<Participant>, bowls: seq<Bowl>, b: Bowl, t: PickTable)
    ensures SumTotals(ps, qs, bowls + [b], t) == SumTotals(ps, qs, bowls, t) + SumPoints(ps, qs, t, b)
  {
    assert (bowls + [b])[..|bowls|] == bowls;
    if |qs| > 0 {
      SumTotalsSnoc(ps, qs[..|qs| - 1], bowls, b, t);
    }
  }

  /** The leaderboard is zero-sum: all participants' totals add up to nothing. */
  lemma {:induction false} TotalsZeroSum(ps: seq<Participant>, bowls: seq<Bowl>, t: PickTable)
    ensures SumTotals(ps, ps, bowls, t) == 0
  {
    if |bowls| == 0 {
      NoBowlsNoTotals(ps, ps, t);
    } else {
      var prefix := bowls[..|bowls| - 1];
      var b := bowls[|bowls| - 1];
      assert bowls == prefix + [b];
      TotalsZeroSum(ps, prefix, t);
      SumTotalsSnoc(ps, ps, prefix, b, t);
      BowlZeroSum(ps, t, b);
    }
  }

  lemma {:induction false} NoBowlsNoTotals(ps: seq<Participant>, qs: seq<Participant>, t: PickTable)
    ensures SumTotals(ps, qs, [], t) == 0
  {
    if |qs| > 0 {
      NoBowlsNoTotals(ps, qs[..|qs| - 1], t);
    }
  }

  /** A participant without any pick scores nothing on every bowl and in total. */
  lemma {:induction false} NoPicksScoresZero(ps: seq<Participant>, bowls: seq<Bowl>, t: PickTable, pid: ParticipantId)
    requires DistinctBowls(bowls)
    requires forall i :: 0 <= i < |t| ==> t[i].participant != pid
    requires Enrolled(ps, pid)
    ensures pid in CalculateScores(ps, bowls, t)
    ensures forall i :: 0 <= i < |bowls| ==> CalculateScores(ps, bowls, t)[pid].byBowl[bowls[i].id] == 0
    ensures CalculateScores(ps, bowls, t)[pid].total == 0
  {
    var r := CalculateScores(ps, bowls, t);
    var k :| 0 <= k < |ps| && ps[k].id == pid;
    assert ps[k] in ps;
    forall i | 0 <= i < |bowls| ensures PointsOn(ps, t, bowls[i], pid) == 0 {
      assert Lookup(t, pid, bowls[i].id).None?;
    }
    TotalWithoutPicks(ps, bowls, t, pid);
  }

  lemma {:induction false} TotalWithoutPicks(ps: seq<Participant>, bowls: seq<Bowl>, t: PickTable, pid: ParticipantId)
    requires forall i :: 0 <= i < |t| ==> t[i].participant != pid
    ensures Total(ps, bowls, t, pid) == 0
  {
    if |bowls| > 0 {
      TotalWithoutPicks(ps, bowls[..|bowls| - 1], t, pid);
      assert Lookup(t, pid, bowls[|bowls| - 1].id).None?;
    }
  }

  /** The scoreboard's pick counts for one bowl. */
  datatype SideCounts = SideCounts(favored: nat, opponent: nat)

  /**
   * The `pick_counts` tally of the scoreboard: per bowl, how many
   * participants picked each side; together they are exactly the
   * participants with a pick on that bowl.
   */
  function PickCounts(ps: seq<Participant>, bowls: seq<Bowl>, t: PickTable): (r: map<BowlId, SideCounts>)
    requires DistinctBowls(bowls)
    ensures r.Keys == set b | b in bowls :: b.id
    ensures forall i :: 0 <= i < |bowls| ==>
              && r[bowls[i].id].favored == Count(ps, t, bowls[i].id, Favored)
              && r[bowls[i].id].opponent == Count(ps, t, bowls[i].id, Opponent)
    ensures forall i :: 0 <= i < |bowls| ==>
              r[bowls[i].id].favored + r[bowls[i].id].opponent == CountPicked(ps, t, bowls[i].id)
  {
    var r := map b | b in bowls :: b.id := SideCounts(Count(ps, t, b.id, Favored), Count(ps, t, b.id, Opponent));
    forall i | 0 <= i < |bowls|
      ensures r[bowls[i].id] == SideCounts(Count(ps, t, bowls[i].id, Favored), Count(ps, t, bowls[i].id, Opponent))
      ensures r[bowls[i].id].favored + r[bowls[i].id].opponent == CountPicked(ps, t, bowls[i].id)
    {
      assert bowls[i] in bowls;
      CountsPartitionPicks(ps, t, bowls[i].id);
    }
    r
  }

  /** The count of one side. */
  function CountOf(c: SideCounts, side: Side): nat {
    if side == Favored then c.favored else c.opponent
  }

  /**
   * The scoreboard's counts are the payouts: on a won bowl a right pick
   * earns the count of the losing side, and a wrong pick loses the count
   * of the winning side.
   */
  lemma PayoutFromCounts(ps: seq<Participant>, bowls: seq<Bowl>, t: PickTable, i: int, pid: ParticipantId, w: Side)
    requires DistinctBowls(bowls) && 0 <= i < |bowls| && Enrolled(ps, pid)
    requires GetWinner(bowls[i]) == Some(Won(w))
    ensures var c := PickCounts(ps, bowls, t)[bowls[i].id];
            && (Lookup(t, pid, bowls[i].id) == Some(w) ==> PointsOn(ps, t, bowls[i], pid) == CountOf(c, OtherSide(w)))
            && (Lookup(t, pid, bowls[i].id) == Some(OtherSide(w)) ==>
                  PointsOn(ps, t, bowls[i], pid) == -(CountOf(c, w) as int))
  {
    var b := bowls[i];
    assert b in bowls;
    var c := PickCounts(ps, bowls, t)[b.id];
    assert c == SideCounts(Count(ps, t, b.id, Favored), Count(ps, t, b.id, Opponent));
  }
}

=== FILE: text.dfy ===
/**
 * The string primitives the score-sync rules are built from, with the
 * semantics of the Python built-ins they stand for: `str.lower` (ASCII
 * letters only), `str.strip` with no argument, `str.replace(old, '')`
 * and the substring test `a in b`.
 */
module Text {

  /** Lower-cases one ASCII letter; every other character is unchanged. */
  function LowerChar(c: char): char {
    if 'A' <= c <= 'Z' then (c as int + 32) as char else c
  }

  predicate IsUpperAscii(c: char) {
    'A' <= c <= 'Z'
  }

  /** `s.lower()`, restricted to ASCII letters. */
  function Lower(s: string): (r: string)
    ensures |r| == |s|
    ensures forall i :: 0 <= i < |s| ==> r[i] == LowerChar(s[i])
    ensures LowerCase(r)
  {
    seq(|s|, i requires 0 <= i < |s| => LowerChar(s[i]))
  }

  /** No ASCII capital letter occurs in `s`. */
  predicate LowerCase(s: string) {
    forall i :: 0 <= i < |s| ==> !IsUpperAscii(s[i])
  }

  /** The characters Python's `str.isspace` accepts. */
  predicate IsSpace(c: char) {
    || c == ' '
    || ('\t' <= c <= '\r')
    || ('\U{1C}' <= c <= '\U{1F}')
    || c == '\U{85}' || c == '\U{A0}' || c == '\U{1680}'
    || ('\U{2000}' <= c <= '\U{200A}')
    || c == '\U{2028}' || c == '\U{2029}' || c == '\U{202F}'
    || c == '\U{205F}' || c == '\U{3000}'
  }

  /** Drops leading whitespace. */
  function StripLeft(s: string): (r: string)
    ensures |r| <= |s| && r == s[|s| - |r|..]
    ensures forall i :: 0 <= i < |s| - |r| ==> IsSpace(s[i])
    ensures r == [] || !IsSpace(r[0])
  {
    if |s| > 0 && IsSpace(s[0]) then StripLeft(s[1..]) else s
  }

  /** Drops trailing whitespace. */
  function StripRight(s: string): (r: string)
    ensures |r| <= |s| && r == s[..|r|]
    ensures forall i :: |r| <= i < |s| ==> IsSpace(s[i])
    ensures r == [] || !IsSpace(r[|r| - 1])
  {
    if |s| > 0 && IsSpace(s[|s| - 1]) then StripRight(s[..|s| - 1]) else s
  }

  /**
   * `s.strip()`: the result is the slice of `s` left after removing a
   * whitespace-only prefix and suffix, and it neither starts nor ends
   * with whitespace.
   */
  function Strip(s: string): (r: string)
    ensures exists i, j ::
              && 0 <= i <= j <= |s| && r == s[i..j]
              && (forall k :: 0 <= k < i ==> IsSpace(s[k]))
              && (forall k :: j <= k < |s| ==> IsSpace(s[k]))
    ensures r == [] || (!IsSpace(r[0]) && !IsSpace(r[|r| - 1]))
    ensures LowerCase(s) ==> LowerCase(r)
    ensures s == [] || (!IsSpace(s[0]) && !IsSpace(s[|s| - 1])) ==> r == s
  {
    var left := StripLeft(s);
    var r := StripRight(left);
    StripIsSlice(s, left, r);
    r
  }

  /** The stripped string is the slice between the two whitespace runs. */
  lemma StripIsSlice(s: string, left: string, r: string)
    requires |left| <= |s| && left == s[|s| - |left|..]
    requires forall k :: 0 <= k < |s| - |left| ==> IsSpace(s[k])
    requires |r| <= |left| && r == left[..|r|]
    requires forall k :: |r| <= k < |left| ==> IsSpace(left[k])
    ensures exists i, j ::
              && 0 <= i <= j <= |s| && r == s[i..j]
              && (forall k :: 0 <= k < i ==> IsSpace(s[k]))
              && (forall k :: j <= k < |s| ==> IsSpace(s[k]))
    ensures LowerCase(s) ==> LowerCase(r)
  {
    var i := |s| - |left|;
    var j := i + |r|;
    assert r == s[i..j];
    assert forall k :: 0 <= k < i ==> IsSpace(s[k]);
    assert forall k :: j <= k < |s| ==> IsSpace(s[k]) by {
      forall k | j <= k < |s|
        ensures IsSpace(s[k])
      {
        assert s[k] == left[k - i];
      }
    }
  }

  /** `sub` occurs in `s` starting at index `i`. */
  ghost predicate OccursAt(s: string, sub: string, i: int) {
    0 <= i <= |s| - |sub| && s[i..i + |sub|] == sub
  }

  /** A string holding a character `s` lacks cannot occur in `s`. */
  lemma AbsentCharExcludes(s: string, sub: string, k: int)
    requires 0 <= k < |sub| && sub[k] !in s
    ensures !exists i :: OccursAt(s, sub, i)
  {
  }

  /** The Python test `sub in s`; the empty string occurs in every string. */
  function Contains(s: string, sub: string): (r: bool)
    ensures r <==> exists i :: OccursAt(s, sub, i)
  {
    if |sub| <= |s| && s[..|sub|] == sub then
      assert OccursAt(s, sub, 0);
      true
    else if |s| == 0 then
      false
    else
      OccursInTail(s, sub);
      Contains(s[1..], sub)
  }

  /** Away from index 0, the occurrences in `s` are those in its tail. */
  lemma OccursInTail(s: string, sub: string)
    requires |s| > 0 && !(|sub| <= |s| && s[..|sub|] == sub)
    ensures (exists i :: OccursAt(s, sub, i)) <==> (exists i :: OccursAt(s[1..], sub, i))
  {
    if i :| OccursAt(s[1..], sub, i) {
      assert OccursAt(s, sub, i + 1);
    }
    if i :| OccursAt(s, sub, i) {
      assert i > 0;
      assert OccursAt(s[1..], sub, i - 1);
    }
  }

  /**
   * `s.replace(pat, '')`: a single left-to-right pass that deletes every
   * non-overlapping occurrence of `pat` it meets.
   */
  function RemoveAll(s: string, pat: string): (r: string)
    requires |pat| > 0
    ensures |r| <= |s|
    ensures LowerCase(s) ==> LowerCase(r)
    ensures !Contains(s, pat) ==> r == s
    ensures Contains(s, pat) ==> |r| + |pat| <= |s|
    decreases |s|
  {
    if |s| < |pat| then
      s
    else if s[..|pat|] == pat then
      assert OccursAt(s, pat, 0);
      RemoveAll(s[|pat|..], pat)
    else
      OccursInTail(s, pat);
      [s[0]] + RemoveAll(s[1..], pat)
  }

  /** An occurrence at the front is deleted, and the pass resumes after it. */
  lemma RemoveAllHit(s: string, pat: string)
    requires |pat| > 0 && OccursAt(s, pat, 0)
    ensures RemoveAll(s, pat) == RemoveAll(s[|pat|..], pat)
  {
    assert s[..|pat|] == s[0..|pat|];
  }

  /** Without an occurrence at the front, the first character is kept. */
  lemma RemoveAllMiss(s: string, pat: string)
    requires |pat| > 0 && |s| > 0 && !OccursAt(s, pat, 0)
    ensures RemoveAll(s, pat) == [s[0]] + RemoveAll(s[1..], pat)
  {
    assert |s| >= |pat| ==> s[..|pat|] == s[0..|pat|];
  }

  /** The occurrences in the tail of `s` are those of `s`, one index on. */
  lemma OccursInTailAt(s: string, pat: string, j: int)
    requires |s| > 0 && 0 <= j
    ensures OccursAt(s[1..], pat, j) <==> OccursAt(s, pat, j + 1)
  {
    if 0 <= j <= |s| - 1 - |pat| {
      assert s[1..][j..j + |pat|] == s[j + 1..j + 1 + |pat|];
    }
  }

  /**
   * What `replace(pat, '')` does with the first occurrence of `pat`: the
   * text before it is kept unchanged, the occurrence itself is deleted,
   * and the pass carries on with the text after it. Together with
   * `RemoveAll`'s contract for a string without `pat`, this determines
   * the result for every input.
   */
  lemma RemoveAllFirstOccurrence(s: string, pat: string, i: int)
    requires |pat| > 0 && OccursAt(s, pat, i)
    requires forall j :: 0 <= j < i ==> !OccursAt(s, pat, j)
    ensures RemoveAll(s, pat) == s[..i] + RemoveAll(s[i + |pat|..], pat)
  {
    NoneBeforeFromForall(s, pat, i);
    RemoveAllKeepsMisses(s, pat, i);
    assert OccursAt(s[i..], pat, 0);
    RemoveAllHit(s[i..], pat);
    assert s[i..][|pat|..] == s[i + |pat|..];
  }

  /** No occurrence of `pat` starts in `s` before index `i`, step by step. */
  ghost predicate NoneBefore(s: string, pat: string, i: nat)
    decreases i
  {
    i == 0 || (|s| > 0 && !OccursAt(s, pat, 0) && NoneBefore(s[1..], pat, i - 1))
  }

  lemma {:induction false} NoneBeforeFromForall(s: string, pat: string, i: nat)
    requires i <= |s|
    requires forall j :: 0 <= j < i ==> !OccursAt(s, pat, j)
    ensures NoneBefore(s, pat, i)
    decreases i
  {
    if i > 0 {
      assert !OccursAt(s, pat, 0);
      NoEarlierInTail(s, pat, i);
      NoneBeforeFromForall(s[1..], pat, i - 1);
    }
  }

  /** The pass copies every character before the first occurrence. */
  lemma {:induction false} RemoveAllKeepsMisses(s: string, pat: string, i: nat)
    requires |pat| > 0 && i <= |s| && NoneBefore(s, pat, i)
    ensures RemoveAll(s, pat) == s[..i] + RemoveAll(s[i..], pat)
    decreases i
  {
    if i == 0 {
      assert s[i..] == s;
    } else {
      RemoveAllMiss(s, pat);
      RemoveAllKeepsMisses(s[1..], pat, i - 1);
      assert s[1..][i - 1..] == s[i..];
      ConsPrefix(s, i, RemoveAll(s[i..], pat));
    }
  }

  /** Putting back the first character of `s` before a prefix of its tail. */
  lemma ConsPrefix(s: string, i: int, rest: string)
    requires 0 < i <= |s|
    ensures [s[0]] + (s[1..][..i - 1] + rest) == s[..i] + rest
  {
    assert [s[0]] + s[1..][..i - 1] == s[..i];
  }

  /** No occurrence before index `i` in `s` means none before `i - 1` in its tail. */
  lemma NoEarlierInTail(s: string, pat: string, i: int)
    requires 0 < i <= |s|
    requires forall j :: 0 <= j < i ==> !OccursAt(s, pat, j)
    ensures forall j :: 0 <= j < i - 1 ==> !OccursAt(s[1..], pat, j)
  {
    forall j | 0 <= j < i - 1
      ensures !OccursAt(s[1..], pat, j)
    {
      OccursInTailAt(s, pat, j);
    }
  }
}

=== FILE: wrappers.dfy ===
/** Optional values: the model's stand-in for Python's `None`. */
module Wrappers {
  datatype Option<+T> = None | Some(value: T)
}
